=== FILE: README.md ===
# rag-api in Dafny

A model of the deterministic core of the Korean question-answering service
`rag-api`. The service answers a query from retrieved documents through
LangChain chains, post-processes the answer, scores it, and wraps it in a
standard `ApiResponse`. It also ingests and deletes uploaded documents.
Retrieval, generation, embedding and storage belong to third-party
libraries; here their results are parameters, and what the service itself
decides is modelled and proved:

- **Citation markers** (`markers.dfy`). The `[digits]` pattern, written as a
  left-to-right scanner with the non-overlapping semantics of `re.findall`.
- **Reliability scoring** (`quality_evaluator.dfy`):
  - the point score, with its source, citation and text terms and its clamp;
  - the five-step grade ladder;
  - the six quality flags;
  - the six-key metrics dictionary and its validation as `QualityMetrics`.
- **Answer enhancement** (`answer_enhancer.dfy`):
  - citation insertion, including the `NameError` that `add_citations`
    raises once it has inserted a citation, since the module never imports `os`;
  - heading rewriting and bolding of important terms;
  - expansion of abbreviations at their first whole-word occurrence.
- **Response formatting** (`response_formatter.dfy`):
  - truncation of context and snippet;
  - the stable score-descending sort of the formatted sources;
  - extraction of `[n]` citations against the sorted list;
  - assembly of the response data.
- **The response schema** (`response_model.dfy`). `display_name`, `snippet`
  and the field rules of `QualityMetrics`.
- **The RAG service** (`rag_service.dfy`):
  - classification of LLM errors;
  - extraction of the answer and the sources from a chain result, and the
    error re-wrapping around it;
  - filtering of the conversation history.
- **The chat endpoints** (`chat_api.dfy`):
  - the mapping of exceptions to error responses in `chat`;
  - the choice of session id and the update of the per-session memory in
    `conversation`, as a `SessionStore` class whose `memory` field the
    endpoint reassigns.
- **The exception hierarchy** (`exceptions.dfy`). Class, message and status
  code.
- **Document processing** (`document_service.dfy`). A `DocumentStore` class
  holds the set of existing directories and the chunks in the vector store.
  It models:
  - loader dispatch on the file suffix;
  - the in-place merge of the caller's metadata dictionary and the stamping
    of every loaded `Document` object;
  - clean-up and error wrapping on failure;
  - the existence check of `delete_document`.

Loops in the source are methods with loop invariants, each proved equal
to a function of its inputs; the properties the source promises are
lemmas about those functions. Floating-point scores are exact `real`s.

## Model

| member | source | states |
|---|---|---|
| Exceptions.StatusCodes | app/exceptions.py:1-42 | status codes per class: base 500, DocumentNotFound 404, RAGProcessing 500, LLMService 503, RateLimit 429, DocumentProcessing 500, InvalidFileFormat 400 |
| Exceptions.MessageKept | app/exceptions.py:1-42 | a message passed to any class's constructor is kept and is what the exception prints as |
| Markers.DigitRunEnd | app/utils/response_formatter.py:62 | the greedy `\d+` run from a position: every character in it is a digit and the one after it is not |
| Markers.ScanFrom | app/utils/response_formatter.py:62-63 | every group `findall` yields is a non-empty run of digits, and there are at most as many groups as characters |
| Markers.FindAll | app/utils/response_formatter.py:63 | every group `re.findall(r'\[(\d+)\]', s)` yields is a non-empty run of digits |
| Markers.HasMarkerIffFound | app/utils/answer_enhancer.py:23 | `re.search(r'\[\d+\]')` finds a marker exactly when `findall` yields at least one group |
| Markers.MarkerText | app/utils/answer_enhancer.py:37-42 | any text containing "[" + digits + "]" holds a marker |
| ResponseModel.DisplayName | app/models/response.py:15-22 | "filename" when present, whatever "source" holds; else the basename of the "source" path (the "/"-free suffix that is the whole path or follows a "/"); else "Unknown document" |
| ResponseModel.FilenameOverSource | app/models/response.py:17-18 | with a "filename", it is the display name even when "source" is present and not a path |
| ResponseModel.Snippet | app/models/response.py:25-29 | at most 100 characters; the content itself when it has at most 100, else its first 97 characters followed by "..." |
| ResponseModel.ParseQualityMetrics | app/models/response.py:38-44 | validation succeeds exactly when the four required fields are present with values their types accept in lax mode and any flags are strings; missing flags become the empty list |
| ResponseModel.IntIsFloat | app/models/response.py:40-43 | every value an `int` field accepts is accepted by a `float` field as the same number; a float is accepted as an `int` exactly when it has no fractional part |
| ResponseModel.LaxValidation | app/models/response.py:38-44 | a boolean score and an integral float count are coerced; a fractional count and a missing grade are refused |
| QualityEvaluator.SourceTerm | app/utils/quality_evaluator.py:43-45 | source term in [0, 0.3]; zero exactly without sources; reaches 0.3 from 5 sources on, stays below 0.3 under 5 |
| QualityEvaluator.CitationTerm | app/utils/quality_evaluator.py:48-50 | citation term in [0, 0.2]; zero exactly when the count is not positive; reaches 0.2 from 3 citations on, stays below it under 3 |
| QualityEvaluator.PresentCount | app/utils/quality_evaluator.py:56-59 | the number of uncertainty phrases found is at most the number of phrases |
| QualityEvaluator.PresentCountPositive | app/utils/quality_evaluator.py:56-59 | the count of phrases present is positive exactly when some phrase occurs in the answer |
| QualityEvaluator.TextTerm | app/utils/quality_evaluator.py:53-69 | the text term lies in [-0.2, 0.2] however many uncertainty phrases occur |
| QualityEvaluator.ReliabilityScore | app/utils/quality_evaluator.py:37-72 | the score lies in [0.3, 1.0] |
| QualityEvaluator.CalculateReliabilityScore | app/utils/quality_evaluator.py:37-72 | the score accumulated term by term and phrase by phrase is `ReliabilityScore`, so it lies in [0.3, 1.0] |
| QualityEvaluator.ScoreIsSumOfTerms | app/utils/quality_evaluator.py:40-72 | the score is 0.5 plus the three terms, cut at 1.0; the clip at 0.0 never applies |
| QualityEvaluator.ScoreWithoutEvidence | app/utils/quality_evaluator.py:43-50 | without sources and citations the score is 0.5 plus the text term, so at most 0.7 |
| QualityEvaluator.ScoreMonotone | app/utils/quality_evaluator.py:43-50 | more sources or more citations never lower the score |
| QualityEvaluator.ReliabilityGrade | app/utils/quality_evaluator.py:74-85 | the grade's inclusive floor is at or below the score, and the next grade's floor is above it |
| QualityEvaluator.GradeBands | app/utils/quality_evaluator.py:74-85 | a grade is given exactly to the scores in its band: from its floor (0.3, 0.5, 0.7, 0.9), inclusive, up to the next floor, exclusive |
| QualityEvaluator.GradeMonotone | app/utils/quality_evaluator.py:74-85 | a higher score never gets a lower grade |
| QualityEvaluator.ComputedScoreGrade | app/utils/quality_evaluator.py:25-29 | no computed score is graded "매우 낮음" |
| QualityEvaluator.GetQualityFlags | app/utils/quality_evaluator.py:87-114 | the flags appended, with the early exit of the phrase loop, are `QualityFlags` of the inputs |
| QualityEvaluator.SourceFlagsMeaning | app/utils/quality_evaluator.py:92-95 | "소스_없음" exactly without sources, "소스_부족" exactly with one source, never both |
| QualityEvaluator.OtherFlagsMeaning | app/utils/quality_evaluator.py:98-112 | "인용_없음" iff no citations; "불확실성_감지" iff some phrase occurs; "응답_짧음" iff length < 50; "응답_김" iff length > 1500; never both length flags |
| QualityEvaluator.RankedConcat | app/utils/quality_evaluator.py:89-112 | flag groups appended in rank order give a list strictly ordered by rank |
| QualityEvaluator.FlagsOrdered | app/utils/quality_evaluator.py:89-114 | at most four flags, "불확실성_감지" at most once, all in the fixed append order |
| QualityEvaluator.EvaluateAnswerQuality | app/utils/quality_evaluator.py:7-35 | the dictionary filled key by key is the report: length, source count, marker count, and score, grade and flags computed with that same count |
| QualityEvaluator.FilledInOrder | app/utils/quality_evaluator.py:10-33 | filling an empty dictionary key by key gives the six-key dictionary |
| QualityEvaluator.ReportFields | app/utils/quality_evaluator.py:13-22 | the report has the six keys; length is `len(answer)`, sources is `len(sources)`, citations is the number of non-overlapping markers |
| QualityEvaluator.MetricsDictParses | app/models/response.py:38-44 | a metrics dictionary with flag labels validates as QualityMetrics, every field carried over |
| QualityEvaluator.ReportIsQualityMetrics | app/models/response.py:38-44 | the evaluator's report always validates as QualityMetrics, with its score, grade, count, length and flags |
| AnswerEnhancer.Sentences | app/utils/answer_enhancer.py:32 | splitting on ". " yields at least one piece |
| AnswerEnhancer.AddCitations | app/utils/answer_enhancer.py:20-55 | the nested loops give `Cited`: the answer with citations inserted, or the NameError |
| AnswerEnhancer.TaggedIsMarked | app/utils/answer_enhancer.py:37-45 | text holding a sentence followed by " [n]" holds a marker |
| AnswerEnhancer.CiteSentenceEffect | app/utils/answer_enhancer.py:35-42 | one sentence step leaves the text unchanged or leaves a marker in it; a citable sentence present in the text leaves a marker; an already tagged sentence changes nothing |
| AnswerEnhancer.CiteSentencesEffect | app/utils/answer_enhancer.py:34-42 | over one source's sentences: the text gains a marker iff some sentence is longer than 20 and occurs in the original answer; otherwise it is unchanged |
| AnswerEnhancer.CiteSourcesEffect | app/utils/answer_enhancer.py:29-42 | over all sources: a marker appears iff some source sentence is citable; otherwise the answer is unchanged |
| AnswerEnhancer.CitationOutcomes | app/utils/answer_enhancer.py:22-55 | `add_citations` returns its input unchanged or raises NameError; it raises exactly when the input has no marker and some source sentence is citable |
| AnswerEnhancer.FormatLines | app/utils/answer_enhancer.py:63-71 | one line out per line in; a heading line gets the "\n### " prefix, every other line is unchanged |
| AnswerEnhancer.NoHeadingUnchanged | app/utils/answer_enhancer.py:60-73 | splitting on newlines and joining back, with no heading line, gives the text back |
| AnswerEnhancer.BoldFromEffect | app/utils/answer_enhancer.py:83-86 | the substitution never shortens the text; it leaves it unchanged without an unguarded occurrence and lengthens it with one |
| AnswerEnhancer.BoldUnchangedIff | app/utils/answer_enhancer.py:85-86 | bolding a term leaves the text unchanged iff the term has no occurrence that lacks `**` on both sides |
| AnswerEnhancer.TermsNonEmpty | app/utils/answer_enhancer.py:76-81 | every important term is non-empty, so every pattern consumes text |
| AnswerEnhancer.ApplyMarkdown | app/utils/answer_enhancer.py:57-88 | the heading loop and then the term loop give `Markdown` of the text |
| AnswerEnhancer.BoldTerms | app/utils/answer_enhancer.py:83-86 | the substitutions applied term by term, in list order, give `BoldAll` over the important terms |
| AnswerEnhancer.FindWord | app/utils/answer_enhancer.py:111-115 | the first whole-word occurrence at or after a position, or none exists |
| AnswerEnhancer.ExpandMeaning | app/utils/answer_enhancer.py:109-116 | the text changes iff the abbreviation occurs as a word and its full form is absent; the change inserts " (full form)" after the first whole-word occurrence and keeps all other text |
| AnswerEnhancer.ExpandIdempotent | app/utils/answer_enhancer.py:109-116 | expanding an abbreviation twice equals expanding it once |
| AnswerEnhancer.ExpandAllKnown | app/utils/answer_enhancer.py:109-116 | when every full form is already present, nothing is expanded |
| AnswerEnhancer.ConceptsNonEmpty | app/utils/answer_enhancer.py:97-107 | every abbreviation is non-empty |
| AnswerEnhancer.HighlightKeyConcepts | app/utils/answer_enhancer.py:90-118 | the loop gives `Highlighted`; text with more than ten `**` is returned unchanged |
| AnswerEnhancer.EnhanceAnswer | app/utils/answer_enhancer.py:7-18 | citations, then markdown, then concept highlighting (`Enhanced`) |
| AnswerEnhancer.EnhanceOutcome | app/utils/answer_enhancer.py:7-18 | enhancing fails exactly when citations would be inserted, always with NameError; otherwise it is highlight(markdown(answer)) |
| ResponseFormatter.Context | app/utils/response_formatter.py:97-99 | at most 300 characters; the content when it has at most 300, else its first 297 characters and "..." |
| ResponseFormatter.PreviewOf | app/utils/response_formatter.py:145 | at most 103 characters; the context when it has at most 100, else its first 100 characters and "..." |
| ResponseFormatter.DisplayNameOf | app/utils/response_formatter.py:105-107 | the basename of the "source" path (the "/"-free suffix that is the whole path or follows a "/") when there is one, else "문서 {i+1}" |
| ResponseFormatter.FormattedFields | app/utils/response_formatter.py:138-147 | `reference_id` is the 1-based input position; content, metadata and score are passed through, score defaulting to 0.0; the length bounds on context and snippet hold |
| ResponseFormatter.InsertPermutes | app/utils/response_formatter.py:152 | inserting adds exactly the one element |
| ResponseFormatter.InsertMembers | app/utils/response_formatter.py:152 | every element after an insertion is the inserted one or came from the list |
| ResponseFormatter.InsertDescending | app/utils/response_formatter.py:152 | inserting into a score-descending list keeps it descending |
| ResponseFormatter.InsertTiesInOrder | app/utils/response_formatter.py:152 | inserting a later element keeps equal scores in input order |
| ResponseFormatter.IdsBelow | app/utils/response_formatter.py:152 | a bound on reference ids carries over to any permutation |
| ResponseFormatter.SortByScoreCorrect | app/utils/response_formatter.py:152 | the stable sort is a permutation, descending by score, with ties in input order |
| ResponseFormatter.FormatSourcesForDisplay | app/utils/response_formatter.py:87-154 | the formatting loop followed by the sort gives the formatted sources in stable score order (`SortByScore` of `FormatAll`) |
| ResponseFormatter.DisplayedSources | app/utils/response_formatter.py:87-154 | exactly one entry per source, a permutation of the formatted entries, descending by score, ties in input order |
| ResponseFormatter.ExtractCitations | app/utils/response_formatter.py:57-85 | the citations collected are `CitationsOf` the answer's markers, in answer order |
| ResponseFormatter.CitationsInRange | app/utils/response_formatter.py:65-81 | with every marker in 1..len(sources) and within the 4300-digit limit of `int`, one citation per marker, in answer order, built from source n-1 (repeats repeat) |
| ResponseFormatter.CitationsOutOfRange | app/utils/response_formatter.py:65-82 | markers of 0, beyond the list, or of more than 4300 digits (whose ValueError is swallowed, even when leading zeros hide a number in range) yield no citation |
| ResponseFormatter.CitationsBound | app/utils/response_formatter.py:65-81 | never more citations than markers |
| ResponseFormatter.MarkerOne | app/utils/response_formatter.py:63 | "[1]" yields the single group "1", of value 1 |
| ResponseFormatter.FirstIsHighest | app/utils/response_formatter.py:152 | the first sorted entry has a score at least every source's score |
| ResponseFormatter.CitationFollowsSortedOrder | app/utils/response_formatter.py:27-34 | "[1]" cites the highest-scored source; once a later source scores higher than the first, that entry is not the one with `reference_id` 1 |
| ResponseFormatter.FirstNotFirstGiven | app/utils/response_formatter.py:27-34 | a source scoring higher than the first one given moves `reference_id` 1 out of the first sorted place |
| ResponseFormatter.FormatRagResponse | app/utils/response_formatter.py:11-55 | the response data built step by step is `Formatted` of the RAG result |
| ResponseFormatter.FormattedResponse | app/utils/response_formatter.py:18-53 | fails only when enhancement fails; without enhancement the answer is unchanged; defaults for missing fields; tokens present iff given; metrics present iff requested, scored against the unformatted sources |
| ResponseFormatter.EnhancedResponse | app/utils/response_formatter.py:30-31 | an enhanced response's answer is highlight(markdown(answer)) |
| RagService.HandleLlmError | app/services/rag.py:232-241 | the handler always yields a RateLimitError or an LLMServiceError |
| RagService.LlmErrorClassification | app/services/rag.py:232-241 | RateLimitError (429, fixed message) iff the lower-cased text mentions "rate limit" or "quota", checked first; else the fixed invalid-key message for "invalid api key" or "authentication"; else LLMServiceError (503) with the original text |
| RagService.SourceScores | app/services/rag.py:128-137 | one source per document, in order, with its text and metadata; a document's own score is kept; the scores given in its place are at most 1.0 and strictly fall with the position |
| RagService.GetAnswerWithSources | app/services/rag.py:98-175 | the steps and handlers give `AnswerWithSources` of the retrieval and chain outcomes |
| RagService.AnswerWithSourcesFailures | app/services/rag.py:104-175 | no documents gives DocumentNotFoundError before the chain runs; a chain failure goes through the LLM handler; DocumentNotFound, LLMService and RateLimit errors pass through; any other failure becomes RAGProcessingError |
| RagService.AnswerWithSourcesResult | app/services/rag.py:117-167 | the answer is "result", else "answer", else the string form; sources come from "source_documents", else from the retrieved documents; tokens present iff counted |
| RagService.SourcesOfPaths | app/services/rag.py:131-137 | sources built from documents with path "source" entries keep them |
| RagService.FormatHistory | app/services/rag.py:186-189 | never more turns than entries |
| RagService.FormatHistoryAppend | app/services/rag.py:186-189 | filtering a concatenation is the concatenation of the filtered parts |
| RagService.FormatCompleteHistory | app/services/rag.py:186-189 | complete entries become one (human, ai) turn each, in order |
| RagService.FormatIncompleteHistory | app/services/rag.py:186-189 | entries lacking "human" or "ai" contribute no turn |
| RagService.GetConversationResponse | app/services/rag.py:177-221 | the filtering loop, the chain and the source loop give `ConversationResult` |
| RagService.ConversationOutcomes | app/services/rag.py:218-221 | a conversation fails only with a RateLimitError or an LLMServiceError, so the RAGProcessingError is unreachable; a success carries the answer and no token counts |
| ChatApi.ChatErrorMapping | app/api/chat.py:57-103 | DocumentNotFoundError gives 404; LLM and rate-limit errors keep their class name and status; other service errors give "RAGServiceError" with their status; anything else gives "InternalServerError", 500, fixed message |
| ChatApi.AnswerPaths | app/api/chat.py:33-40 | a successful RAG result from path-valued documents can be formatted |
| ChatApi.Chat | app/api/chat.py:17-103 | the endpoint returns the reply for the RAG-then-format outcome |
| ChatApi.ChatReplyShape | app/api/chat.py:43-103 | success iff the outcome succeeded; data iff success, error iff failure; meta holds the query, and `total_sources` only on success |
| ChatApi.ChatNoDocuments | app/services/rag.py:106-108 | a query with no retrieved documents is answered with a DocumentNotFoundError, 404 |
| ChatApi.ChatCitableAnswerFails | app/api/chat.py:93-103 | an answer without markers that quotes a citable source sentence is answered with InternalServerError (the NameError) |
| ChatApi.SessionIdChoice | app/api/chat.py:123-127 | the session id is the cookie parameter, the request cookie or the fresh id, and it is empty only when all three are |
| ChatApi.FollowUpSeesTurn | app/api/chat.py:123-159 | after a successful turn, a later request in the same session without its own history is passed the earlier history plus that turn as `chat_history` |
| ChatApi.ConversationPaths | app/api/chat.py:137-147 | a successful conversation result from path-valued documents can be formatted |
| ChatApi.MemoryUpdate | app/api/chat.py:158-159 | on success the session's history becomes the used history plus one {human, ai} entry and no other session changes; on failure memory is unchanged |
| ChatApi.ConversationFailures | app/api/chat.py:137-147 | a conversation fails only with RateLimitError (429), LLMServiceError (503) or the NameError of citation insertion |
| ChatApi.ConversationErrors | app/api/chat.py:150-181 | success iff the outcome succeeded; `history_length` is the used length before the append; an error reports its class name and status, or 500 |
| ChatApi.AnswerConversation | app/api/chat.py:137-147 | the RAG call then formatting (`ConversationOutcome`) |
| ChatApi.SessionStore.constructor | app/api/chat.py:8 | memory starts empty |
| ChatApi.SessionStore.Conversation | app/api/chat.py:106-181 | the reply and the new memory are those for the chosen session id and the used history |
| ChatApi.SessionStore.Respond | app/api/chat.py:150-181 | the reply is built and the memory updated only on success |
| DocumentService.LoaderDispatch | app/services/document_service.py:30-54 | a path is loaded iff it has one of the four suffixes, by that suffix's loader with .pdf first; otherwise InvalidFileFormatError (400) listing the formats |
| DocumentService.UnsupportedNames | app/services/document_service.py:34-54 | ".PDF", ".htm" and names without an extension are refused; "x.txt.pdf" is a PDF |
| DocumentService.JoinPrefix | app/services/document_service.py:83 | what `os.path.join` puts before a file name ends in "/" or is empty |
| DocumentService.SuffixAfterSlash | app/services/document_service.py:83 | a "/"-free suffix of a joined path is a suffix of the name |
| DocumentService.TargetSuffix | app/services/document_service.py:83-87 | the stored path has a given suffix iff the uploaded file name has it |
| DocumentService.MergedMetadata | app/services/document_service.py:90-97 | the five system keys override the caller's; every other caller key keeps its value |
| DocumentService.StampedCarriesMetadata | app/services/document_service.py:99-100 | every stamped document carries every merged key with the merged value, and its untouched keys |
| DocumentService.ProcessFailureKinds | app/services/document_service.py:133-138 | InvalidFileFormatError is re-raised unchanged; any other failure becomes DocumentProcessingError (500) with the failure's text |
| DocumentService.UnsupportedUpload | app/services/document_service.py:87 | an upload with an unsupported name fails with the 400 error, which is re-raised unchanged |
| DocumentService.Document.constructor | app/services/document_service.py:35-48 | a loaded document holds its text and metadata |
| DocumentService.MetadataDict.constructor | app/services/document_service.py:72 | a caller dictionary holds its entries |
| DocumentService.MetadataDict.Update | app/services/document_service.py:91 | `dict.update`: the other dictionary's entries win |
| DocumentService.StampAll | app/services/document_service.py:99-100 | every document's metadata is its former metadata with the merged keys laid over; texts unchanged |
| DocumentService.Ingest | app/services/document_service.py:90-103 | a non-empty caller dictionary is updated in place, an empty or missing one replaced by a fresh one; every document is stamped; the stamped documents are split |
| DocumentService.DocumentStore.constructor | app/services/document_service.py:27-28 | the documents directory exists |
| DocumentService.DocumentStore.ProcessDocument | app/services/document_service.py:71-138 | a failed copy or load leaves store, metadata and documents as they were, removes the upload's directory and reports the wrapped failure; otherwise as Ingested |
| DocumentService.DocumentStore.Ingested | app/services/document_service.py:90-123 | metadata merged and stamped; on success the directory exists, the chunks are appended to the store and `chunks_count` is their number; on a store failure the directory is removed |
| DocumentService.DocumentStore.Commit | app/services/document_service.py:106-138 | the chunks are added and the result returned, or the directory removed and the failure wrapped |
| DocumentService.DocumentStore.DeleteDocument | app/services/document_service.py:182-204 | false and nothing changed when the directory is absent; otherwise the directory is removed and the result is true, or a removal failure is a DocumentProcessingError |
| Common.Basename | app/models/response.py:20 | `os.path.basename`: a "/"-free suffix of the path, preceded by a "/" unless it is the whole path |
| Common.PathJoin | app/services/document_service.py:79-83 | `os.path.join` ends with its last component |
| Common.JoinSplit | app/utils/answer_enhancer.py:60-73 | joining the pieces of a split with the same separator gives the text back |
| Common.ReplaceAllEffect | app/utils/answer_enhancer.py:39-42 | `str.replace` changes nothing without an occurrence, and leaves the replacement in the text with one |
| Common.DecimalRoundTrip | app/utils/answer_enhancer.py:37 | `int(str(n)) == n` for the citation numbers written and read back |

## Left out

- LangChain chains, the retriever, tiktoken, `time.time` and `uuid4` are
  parameters: retrieval and chain results, token counts, processing time,
  the fresh document and session ids, and the clock readings.
- `async`, `await` and `asyncio.to_thread` are plain sequential steps. All
  logging is dropped.
- The filesystem and Chroma. Directories are a set of paths, and the vector
  store is the list of chunks added to it. The text splitter is a function
  parameter. Copy, load, add and remove failures are parameters. The
  upload's directory is created before the copy; the model shows only the
  final set of directories.
- Errors raised while removing the directory during clean-up are swallowed
  by the source, so they are not modelled.
- `delete_document` deletes nothing from the vector store, so the model
  leaves the store unchanged.
- DocumentService.DocumentStore.DeleteDocument: the document id is taken
  as a single path component and paths are compared as plain strings.
  Aliases are not resolved ("", ".", "..", a trailing "/" or an embedded
  "/"), and `shutil.rmtree` removing a whole subtree is not captured. For
  the id "" the source removes data/documents/ with every stored document,
  and for ".." it removes data/ including the default Chroma directory;
  both return True. The model instead returns false for these ids unless
  that exact string path is in its set, and removes only that one path.
- `get_answer`, `run_chain_async`, `get_all_documents` and `split_documents`
  only call library code and are not modelled.
- The chain, prompt and service construction in `app/services/rag.py` and
  the service factories are library wiring and are not modelled.
- `display_metadata` of a formatted source is not modelled: it holds the
  percentage string of the score and the date formatted with `strftime`.
- Scores are exact reals, not IEEE doubles. Rounding at the grade
  boundaries is not captured.
- Regular expressions are written out for the patterns used.
  - `\d` is ASCII digits.
  - `\w`, used for `\b`, is approximated by ASCII letters, digits, `_`,
    Hangul and CJK ideographs.
  - `str.lower` maps only ASCII letters and the Kelvin sign.
- "source" metadata values are required to be strings wherever `basename`
  is applied to them (`PathSources`, `PathInputs`, `PathChain`, and
  `DisplayName` only when there is no "filename"). A non-string value
  would raise a TypeError in the source.
- The `ValueError` of `extract_citations` is modelled as `int`'s digit
  limit of CPython 3.11 and later (4300 digits by default): such a marker
  is skipped, even when leading zeros hide a number in range. On an
  interpreter without the limit such a group is parsed instead. The
  `IndexError` half of the handler cannot trigger, because the index is
  range-checked. The snippet and display name of a formatted source are
  always present, so their fallbacks are not modelled either.
- `add_citations` uses the unimported `os` module once a marker is present
  and sources exist. The model keeps this as the NameError outcome rather
  than producing the reference list.
- FastAPI routing, request validation and cookies (apart from the cookie
  values the conversation endpoint reads) are not modelled. Nor are the
  handlers in `app/main.py`, the upload endpoints in `app/api/documents.py`,
  settings, and the request schema.
- The conversation chain's own `ConversationBufferMemory`
  (app/services/rag.py:65-69, attached at line 81) is one buffer shared by
  every session. LangChain lays its `chat_history` over the inputs, so it
  overrides the history the service passes. That memory is not modelled:
  the chain is a function of the turns it is given, and the model states
  what the endpoint passes (`ChatApi.FollowUpSeesTurn`), not what the
  chain then sees.
- `SESSION_MEMORY` is a plain map from session id to history. Its module,
  app/session_memory.py, is not part of this model.
- The session's list is appended in place and then stored. The model stores
  the appended value, so aliasing of that list with the request's history
  is not captured.
- ResponseModel.ParseQualityMetrics: lax coercion of numeric strings
  (such as "120"), bytes and other containers is not modelled; such
  values are refused where pydantic would accept them.
- AnswerEnhancer.ExpandIdempotent: idempotence is proved for one
  abbreviation at a time, not for the whole pass of HighlightKeyConcepts
  over all nine.

=== FILE: answer_enhancer.dfy ===
/** Post-processing of a generated answer: citation markers after source
    sentences found in the answer, markdown headings and bold terms, and
    the expansion of known abbreviations.

    As written, the citation step refers to `os.path.basename` in a module
    that never imports `os`. The reference list it builds after inserting a
    marker therefore raises `NameError` on its first source. The model keeps
    that behaviour as an error outcome. */
module AnswerEnhancer {
  import opened Common
  import opened Exceptions
  import opened Markers

  // ---------------------------------------------------------------------
  // Citation markers

  /** `source.get("content", "")` */
  function SourceContent(source: RawSource): string {
    source.content.GetOr("")
  }

  /** The sentences of a source: its content split on ". ". */
  function Sentences(content: string): (sentences: seq<string>)
    ensures |sentences| >= 1
  {
    Split(content, ". ")
  }

  /** The marker " [n]" for the source at 1-based position `n`. */
  function Tag(n: nat): string {
    " [" + NatToString(n) + "]"
  }

  /** A source sentence is cited when it is longer than 20 characters and
      occurs in the original answer. */
  predicate Citable(answer: string, sentence: string) {
    |sentence| > 20 && Contains(answer, sentence)
  }

  /** One pass of the inner loop: every occurrence of a citable sentence
      gets the marker, unless the marked sentence is already there. */
  function CiteSentence(enhanced: string, answer: string, sentence: string, n: nat): string {
    if Citable(answer, sentence) && !Contains(enhanced, sentence + Tag(n))
    then ReplaceAll(enhanced, sentence, sentence + Tag(n))
    else enhanced
  }

  /** The inner loop over the sentences of source number `n`. */
  function CiteSentences(enhanced: string, answer: string, sentences: seq<string>, n: nat): string
    decreases |sentences|
  {
    if |sentences| == 0 then enhanced
    else
      CiteSentence(CiteSentences(enhanced, answer, sentences[..|sentences| - 1], n),
                   answer, sentences[|sentences| - 1], n)
  }

  /** The outer loop over the sources. */
  function CiteSources(answer: string, sources: seq<RawSource>): string
    decreases |sources|
  {
    if |sources| == 0 then answer
    else
      CiteSentences(CiteSources(answer, sources[..|sources| - 1]), answer,
                    Sentences(SourceContent(sources[|sources| - 1])), |sources|)
  }

  const ReferencesHeader: string := "\n\n**참고 문헌:**\n"

  /** The exception raised when the reference list evaluates `os.path`. */
  const OsNotDefined: Failure := Other("NameError", "name 'os' is not defined")

  /** The outcome of `add_citations`. An answer that already has a marker
      is returned as it is. Once the loops have inserted a marker, the
      header is appended and the first reference line raises. */
  function Cited(answer: string, sources: seq<RawSource>): Result<string, Failure> {
    if HasMarker(answer) then Ok(answer)
    else
      var enhanced := CiteSources(answer, sources);
      if !HasMarker(enhanced) then Ok(enhanced)
      else if |sources| == 0 then Ok(enhanced + ReferencesHeader)
      else Err(OsNotDefined)
  }

  /** `add_citations` */
  method AddCitations(answer: string, sources: seq<RawSource>) returns (r: Result<string, Failure>)
    ensures r == Cited(answer, sources)
  {
    if HasMarker(answer) {
      return Ok(answer);
    }
    var enhanced := answer;
    for i := 0 to |sources|
      invariant enhanced == CiteSources(answer, sources[..i])
    {
      var content := SourceContent(sources[i]);
      var sentences := Split(content, ". ");
      var citation := Tag(i + 1);
      ghost var before := enhanced;
      for j := 0 to |sentences|
        invariant enhanced == CiteSentences(before, answer, sentences[..j], i + 1)
      {
        var sentence := sentences[j];
        assert sentences[..j + 1][..j] == sentences[..j];
        if |sentence| > 20 && Contains(answer, sentence) {
          if !Contains(enhanced, sentence + citation) {
            enhanced := ReplaceAll(enhanced, sentence, sentence + citation);
          }
        }
      }
      assert sentences[..|sentences|] == sentences;
      assert sources[..i + 1][..i] == sources[..i];
    }
    assert sources[..|sources|] == sources;
    if HasMarker(enhanced) {
      enhanced := enhanced + ReferencesHeader;
      if |sources| > 0 {
        // The reference line of the first source evaluates the default
        // `os.path.basename(...)` of its "filename" lookup.
        return Err(OsNotDefined);
      }
    }
    return Ok(enhanced);
  }

  /** Some sentence of `sentences` is citable. */
  predicate AnyCitable(answer: string, sentences: seq<string>) {
    exists k | 0 <= k < |sentences| :: Citable(answer, sentences[k])
  }

  /** Some sentence of some source is citable. */
  predicate SourceCitable(answer: string, sources: seq<RawSource>) {
    exists i | 0 <= i < |sources| :: AnyCitable(answer, Sentences(SourceContent(sources[i])))
  }

  /** A text holding a sentence followed by its marker holds a marker. */
  lemma TaggedIsMarked(s: string, sentence: string, n: nat)
    requires Contains(s, sentence + Tag(n))
    ensures HasMarker(s)
  {
    var ds := NatToString(n);
    assert sentence + Tag(n) == (sentence + " ") + ("[" + ds + "]");
    ContainsParts(s, sentence + " ", "[" + ds + "]");
    MarkerText(s, ds);
  }

  /** One pass either changes nothing or leaves a marker; it keeps a marker
      that was there; it leaves a marker whenever a citable sentence occurs
      in the text; and it changes nothing once the marked sentence is
      there. */
  lemma CiteSentenceEffect(enhanced: string, answer: string, sentence: string, n: nat)
    ensures var r := CiteSentence(enhanced, answer, sentence, n);
      && (r == enhanced || HasMarker(r))
      && (HasMarker(enhanced) ==> HasMarker(r))
      && (Citable(answer, sentence) && Contains(enhanced, sentence) ==> HasMarker(r))
      && (Contains(enhanced, sentence + Tag(n)) ==> r == enhanced)
  {
    var tagged := sentence + Tag(n);
    if Citable(answer, sentence) {
      if Contains(enhanced, tagged) {
        TaggedIsMarked(enhanced, sentence, n);
      } else {
        ReplaceAllEffect(enhanced, sentence, tagged);
        if Contains(enhanced, sentence) {
          TaggedIsMarked(ReplaceAll(enhanced, sentence, tagged), sentence, n);
        }
      }
    }
  }

  lemma {:induction false} CiteSentencesEffect(enhanced: string, answer: string, sentences: seq<string>, n: nat)
    requires enhanced == answer || HasMarker(enhanced)
    ensures var r := CiteSentences(enhanced, answer, sentences, n);
      && (r == answer || HasMarker(r))
      && (HasMarker(enhanced) ==> HasMarker(r))
      && (AnyCitable(answer, sentences) ==> HasMarker(r))
      && (!AnyCitable(answer, sentences) ==> r == enhanced)
    decreases |sentences|
  {
    if |sentences| > 0 {
      var init, last := sentences[..|sentences| - 1], sentences[|sentences| - 1];
      CiteSentencesEffect(enhanced, answer, init, n);
      var prev := CiteSentences(enhanced, answer, init, n);
      CiteSentenceEffect(prev, answer, last, n);
      if AnyCitable(answer, init) {
        var k :| 0 <= k < |init| && Citable(answer, init[k]);
        assert sentences[k] == init[k];
      }
      if AnyCitable(answer, sentences) && !Citable(answer, last) {
        var k :| 0 <= k < |sentences| && Citable(answer, sentences[k]);
        assert init[k] == sentences[k];
      }
    }
  }

  lemma {:induction false} CiteSourcesEffect(answer: string, sources: seq<RawSource>)
    ensures var r := CiteSources(answer, sources);
      && (r == answer || HasMarker(r))
      && (SourceCitable(answer, sources) ==> HasMarker(r))
      && (!SourceCitable(answer, sources) ==> r == answer)
    decreases |sources|
  {
    if |sources| > 0 {
      var init, last := sources[..|sources| - 1], sources[|sources| - 1];
      CiteSourcesEffect(answer, init);
      var prev := CiteSources(answer, init);
      var sentences := Sentences(SourceContent(last));
      CiteSentencesEffect(prev, answer, sentences, |sources|);
      if SourceCitable(answer, init) {
        var i :| 0 <= i < |init| && AnyCitable(answer, Sentences(SourceContent(init[i])));
        assert sources[i] == init[i];
      }
      if SourceCitable(answer, sources) && !AnyCitable(answer, sentences) {
        var i :| 0 <= i < |sources| && AnyCitable(answer, Sentences(SourceContent(sources[i])));
        assert init[i] == sources[i];
      }
    }
  }

  /** As written, `add_citations` either returns its input unchanged or
      raises `NameError`, and it raises exactly when the answer has no
      marker yet and some source sentence longer than 20 characters occurs
      in it. */
  lemma CitationOutcomes(answer: string, sources: seq<RawSource>)
    ensures Cited(answer, sources) == Ok(answer) || Cited(answer, sources) == Err(OsNotDefined)
    ensures Cited(answer, sources).Err? <==> !HasMarker(answer) && SourceCitable(answer, sources)
  {
    CiteSourcesEffect(answer, sources);
  }

  // ---------------------------------------------------------------------
  // Markdown

  /** The words that open a heading line when followed by ":". */
  const HeadingWords: seq<string> := ["주요 기능", "특징", "장점", "단점", "결론", "요약"]

  /** `re.match(r'^(주요 기능|특징|장점|단점|결론|요약):', line)` */
  predicate IsHeading(line: string) {
    exists k | 0 <= k < |HeadingWords| :: StartsWith(line, HeadingWords[k] + ":")
  }

  function FormatLine(line: string): string {
    if IsHeading(line) then "\n### " + line else line
  }

  /** The formatted lines: one per line, a heading line prefixed with
      "\n### " and every other line as it was. */
  function FormatLines(lines: seq<string>): (formatted: seq<string>)
    decreases |lines|
    ensures |formatted| == |lines|
    ensures forall k | 0 <= k < |lines| ::
      formatted[k] == (if IsHeading(lines[k]) then "\n### " + lines[k] else lines[k])
  {
    if |lines| == 0 then []
    else FormatLines(lines[..|lines| - 1]) + [FormatLine(lines[|lines| - 1])]
  }

  /** The heading pass over the lines of `text`. */
  function MarkHeadings(text: string): string {
    Join(FormatLines(Split(text, "\n")), "\n")
  }

  /** A text without heading lines goes through the heading pass
      unchanged. */
  lemma NoHeadingUnchanged(text: string)
    requires forall k | 0 <= k < |Split(text, "\n")| :: !IsHeading(Split(text, "\n")[k])
    ensures MarkHeadings(text) == text
  {
    var lines := Split(text, "\n");
    assert FormatLines(lines) == lines;
    JoinSplit(text, "\n");
  }

  /** The terms set in bold, in the order they are processed. */
  const ImportantTerms: seq<string> := [
    "FastAPI", "Pydantic", "비동기", "async", "await", "의존성 주입",
    "자동 문서화", "타입 힌트", "성능", "속도", "OpenAPI", "JSON Schema",
    "RAG", "LLM", "GPT-4", "임베딩", "벡터", "검색", "생성", "Retrieval",
    "Vector Store", "Chroma", "Chain", "OpenAI"]

  /** `t` occurs at `i` neither right after nor right before "**": the
      pattern `(?<!\*\*)t(?!\*\*)` matches there. */
  predicate GuardedMatch(s: string, t: string, i: nat) {
    && OccursAt(s, t, i)
    && !(i >= 2 && s[i - 2..i] == "**")
    && !(i + |t| + 2 <= |s| && s[i + |t|..i + |t| + 2] == "**")
  }

  /** `re.sub` of that pattern by "**t**" on `s[i:]`, the look-around
      seeing the whole of `s`: matches are taken left to right, and the
      scan resumes after each one. */
  function BoldFrom(s: string, t: string, i: nat): string
    requires |t| > 0 && i <= |s|
    decreases |s| - i
  {
    if i == |s| then ""
    else if GuardedMatch(s, t, i) then "**" + t + "**" + BoldFrom(s, t, i + |t|)
    else [s[i]] + BoldFrom(s, t, i + 1)
  }

  function Bold(s: string, t: string): string
    requires |t| > 0
  {
    BoldFrom(s, t, 0)
  }

  lemma {:induction false} BoldFromEffect(s: string, t: string, i: nat)
    requires |t| > 0 && i <= |s|
    ensures |BoldFrom(s, t, i)| >= |s| - i
    ensures (forall j | i <= j < |s| :: !GuardedMatch(s, t, j)) ==> BoldFrom(s, t, i) == s[i..]
    ensures (exists j | i <= j < |s| :: GuardedMatch(s, t, j)) ==> |BoldFrom(s, t, i)| > |s| - i
    decreases |s| - i
  {
    if i < |s| {
      if GuardedMatch(s, t, i) {
        BoldFromEffect(s, t, i + |t|);
      } else {
        BoldFromEffect(s, t, i + 1);
        assert s[i..] == [s[i]] + s[i + 1..];
        if exists j | i <= j < |s| :: GuardedMatch(s, t, j) {
          var j :| i <= j < |s| && GuardedMatch(s, t, j);
          assert i + 1 <= j;
        }
      }
    }
  }

  /** Setting a term in bold changes the text exactly when the term occurs
      somewhere not already next to "**". */
  lemma BoldUnchangedIff(s: string, t: string)
    requires |t| > 0
    ensures Bold(s, t) == s <==> forall j | 0 <= j < |s| :: !GuardedMatch(s, t, j)
  {
    BoldFromEffect(s, t, 0);
  }

  /** The bold pass over `terms`, in order. */
  function BoldAll(s: string, terms: seq<string>): string
    requires forall k | 0 <= k < |terms| :: |terms[k]| > 0
    decreases |terms|
  {
    if |terms| == 0 then s
    else Bold(BoldAll(s, terms[..|terms| - 1]), terms[|terms| - 1])
  }

  /** What `apply_markdown` computes. */
  function Markdown(text: string): string {
    BoldAll(MarkHeadings(text), ImportantTerms)
  }

  /** Every term is non-empty. */
  lemma TermsNonEmpty()
    ensures forall k | 0 <= k < |ImportantTerms| :: |ImportantTerms[k]| > 0
  {
  }

  /** `apply_markdown` */
  method ApplyMarkdown(text: string) returns (result: string)
    ensures result == Markdown(text)
  {
    var lines := Split(text, "\n");
    var formattedLines: seq<string> := [];
    for k := 0 to |lines|
      invariant formattedLines == FormatLines(lines[..k])
    {
      assert lines[..k + 1][..k] == lines[..k];
      if IsHeading(lines[k]) {
        formattedLines := formattedLines + ["\n### " + lines[k]];
      } else {
        formattedLines := formattedLines + [lines[k]];
      }
    }
    assert lines[..|lines|] == lines;
    result := Join(formattedLines, "\n");
    result := BoldTerms(result);
  }

  /** The second half of `apply_markdown`: one substitution per term, in
      list order. */
  method BoldTerms(text: string) returns (result: string)
    ensures result == BoldAll(text, ImportantTerms)
  {
    TermsNonEmpty();
    result := text;
    for k := 0 to |ImportantTerms|
      invariant result == BoldAll(text, ImportantTerms[..k])
    {
      result := Bold(result, ImportantTerms[k]);
      assert ImportantTerms[..k + 1][..k] == ImportantTerms[..k];
    }
    assert ImportantTerms[..|ImportantTerms|] == ImportantTerms;
  }

  // ---------------------------------------------------------------------
  // Abbreviations

  /** The abbreviations and their full forms, in the dictionary's order. */
  const Concepts: seq<(string, string)> := [
    ("API", "Application Programming Interface"),
    ("REST", "Representational State Transfer"),
    ("HTTP", "Hypertext Transfer Protocol"),
    ("JSON", "JavaScript Object Notation"),
    ("ASGI", "Asynchronous Server Gateway Interface"),
    ("OAuth", "Open Authorization"),
    ("RAG", "Retrieval-Augmented Generation"),
    ("LLM", "Large Language Model"),
    ("NLP", "Natural Language Processing")]

  /** A character `\w` matches: letters and digits, "_", Hangul and the
      common CJK ideographs. */
  predicate IsWordChar(c: char) {
    || ('a' <= c <= 'z') || ('A' <= c <= 'Z') || ('0' <= c <= '9') || c == '_'
    || ('\U{1100}' <= c <= '\U{11FF}') || ('\U{3131}' <= c <= '\U{318E}')
    || ('\U{AC00}' <= c <= '\U{D7A3}') || ('\U{4E00}' <= c <= '\U{9FFF}')
  }

  /** `\bw\b` matches at `i`, for a word `w` that starts and ends with a
      word character. */
  predicate WordAt(s: string, w: string, i: nat) {
    && OccursAt(s, w, i)
    && (i == 0 || !IsWordChar(s[i - 1]))
    && (i + |w| == |s| || !IsWordChar(s[i + |w|]))
  }

  /** `re.search(r'\b' + re.escape(w) + r'\b', s[i:])`, as a position of `s`. */
  function FindWord(s: string, w: string, i: nat): (r: Option<nat>)
    requires |w| > 0 && i <= |s|
    decreases |s| - i
    ensures r.Some? ==> i <= r.value && WordAt(s, w, r.value)
    ensures r.Some? ==> forall k | i <= k < r.value :: !WordAt(s, w, k)
    ensures r.None? ==> forall k | i <= k :: !WordAt(s, w, k)
  {
    if i + |w| > |s| then None
    else if WordAt(s, w, i) then Some(i)
    else FindWord(s, w, i + 1)
  }

  /** One iteration of the loop over the abbreviations: when the full form
      is absent, the first whole-word occurrence of the abbreviation becomes
      "abbreviation (full form)". */
  function Expand(text: string, concept: string, fullForm: string): string
    requires |concept| > 0
  {
    if Contains(text, fullForm) then text
    else match FindWord(text, concept, 0)
      case None => text
      case Some(p) => text[..p] + concept + " (" + fullForm + ")" + text[p + |concept|..]
  }

  /** The text changes exactly when the full form is absent and the
      abbreviation occurs as a whole word; then only its first such
      occurrence is followed by the full form in parentheses, and nothing
      else changes. */
  lemma ExpandMeaning(text: string, concept: string, fullForm: string)
    requires |concept| > 0
    ensures var r := Expand(text, concept, fullForm);
      && (r != text <==> !Contains(text, fullForm) && exists p: nat :: WordAt(text, concept, p))
      && (r != text ==> exists p: nat ::
            && WordAt(text, concept, p)
            && (forall q | 0 <= q < p :: !WordAt(text, concept, q))
            && r == text[..p + |concept|] + " (" + fullForm + ")" + text[p + |concept|..])
  {
    var r := Expand(text, concept, fullForm);
    if !Contains(text, fullForm) && FindWord(text, concept, 0).Some? {
      var p := FindWord(text, concept, 0).value;
      assert r == text[..p + |concept|] + " (" + fullForm + ")" + text[p + |concept|..] by {
        assert text[..p + |concept|] == text[..p] + concept;
      }
      assert |r| == |text| + |fullForm| + 3;
    }
  }

  /** Expanding an abbreviation twice is expanding it once. */
  lemma ExpandIdempotent(text: string, concept: string, fullForm: string)
    requires |concept| > 0
    ensures Expand(Expand(text, concept, fullForm), concept, fullForm) == Expand(text, concept, fullForm)
  {
    var r := Expand(text, concept, fullForm);
    if r != text {
      var p := FindWord(text, concept, 0).value;
      var before, after := text[..p] + concept + " (", ")" + text[p + |concept|..];
      assert r == before + fullForm + after;
      ContainsMiddle(before, fullForm, after);
    }
  }

  /** The loop over `concepts`, in order. */
  function ExpandAll(text: string, concepts: seq<(string, string)>): string
    requires forall k | 0 <= k < |concepts| :: |concepts[k].0| > 0
    decreases |concepts|
  {
    if |concepts| == 0 then text
    else
      var (concept, fullForm) := concepts[|concepts| - 1];
      Expand(ExpandAll(text, concepts[..|concepts| - 1]), concept, fullForm)
  }

  /** A text in which every full form already occurs is left as it is. */
  lemma {:induction false} ExpandAllKnown(text: string, concepts: seq<(string, string)>)
    requires forall k | 0 <= k < |concepts| :: |concepts[k].0| > 0
    requires forall k | 0 <= k < |concepts| :: Contains(text, concepts[k].1)
    ensures ExpandAll(text, concepts) == text
    decreases |concepts|
  {
    if |concepts| > 0 {
      var init := concepts[..|concepts| - 1];
      forall k | 0 <= k < |init|
        ensures Contains(text, init[k].1)
      {
        assert init[k] == concepts[k];
      }
      ExpandAllKnown(text, init);
    }
  }

  /** `text.count(s)` for a non-empty `s`: the non-overlapping occurrences,
      one fewer than the pieces of a split. */
  function CountOf(text: string, s: string): nat
    requires |s| > 0
  {
    |Split(text, s)| - 1
  }

  /** What `highlight_key_concepts` computes: nothing when the text already
      has more than ten "**", else the abbreviation loop. */
  function Highlighted(text: string): string {
    if CountOf(text, "**") > 10 then text else ExpandAll(text, Concepts)
  }

  /** Every abbreviation is non-empty. */
  lemma ConceptsNonEmpty()
    ensures forall k | 0 <= k < |Concepts| :: |Concepts[k].0| > 0
  {
  }

  /** `highlight_key_concepts` */
  method HighlightKeyConcepts(text: string) returns (result: string)
    ensures result == Highlighted(text)
    ensures CountOf(text, "**") > 10 ==> result == text
  {
    result := text;
    if |Split(text, "**")| - 1 > 10 {
      return;
    }
    ConceptsNonEmpty();
    for k := 0 to |Concepts|
      invariant result == ExpandAll(text, Concepts[..k])
    {
      var concept, fullForm := Concepts[k].0, Concepts[k].1;
      ghost var prev := result;
      var found := FindWord(result, concept, 0);
      if found.Some? && !Contains(result, fullForm) {
        var pos := found.value;
        result := result[..pos] + concept + " (" + fullForm + ")" + result[pos + |concept|..];
      }
      assert result == Expand(prev, concept, fullForm);
      assert Concepts[..k + 1][..k] == Concepts[..k];
    }
    assert Concepts[..|Concepts|] == Concepts;
  }

  // ---------------------------------------------------------------------
  // The pipeline

  /** What `enhance_answer` computes: the three steps in order, the first
      of which may raise. */
  function Enhanced(answer: string, sources: seq<RawSource>): Result<string, Failure> {
    match Cited(answer, sources)
    case Err(e) => Err(e)
    case Ok(cited) => Ok(Highlighted(Markdown(cited)))
  }

  /** `enhance_answer` */
  method EnhanceAnswer(answer: string, sources: seq<RawSource>) returns (r: Result<string, Failure>)
    ensures r == Enhanced(answer, sources)
  {
    var cited := AddCitations(answer, sources);
    if cited.Err? {
      return Err(cited.error);
    }
    var formatted := ApplyMarkdown(cited.value);
    var highlighted := HighlightKeyConcepts(formatted);
    return Ok(highlighted);
  }

  /** As written, enhancing fails exactly when a citation would be
      inserted, and when it succeeds the citation step has changed
      nothing. */
  lemma EnhanceOutcome(answer: string, sources: seq<RawSource>)
    ensures Enhanced(answer, sources).Err? <==> !HasMarker(answer) && SourceCitable(answer, sources)
    ensures Enhanced(answer, sources).Err? ==> Enhanced(answer, sources).error == OsNotDefined
    ensures Enhanced(answer, sources).Ok? ==>
      Enhanced(answer, sources).value == Highlighted(Markdown(answer))
  {
    CitationOutcomes(answer, sources);
  }
}

=== FILE: chat_api.dfy ===
/** The two chat endpoints: `chat`, which answers one question and maps
    every failure to an error response, and `conversation`, which answers
    with the session's history and keeps that history in the process-wide
    session memory.

    The retriever's and the chains' outcomes, the elapsed time, the token
    counts, the cookies and the fresh session id are parameters. */
module ChatApi {
  import opened Common
  import opened Exceptions
  import opened ResponseModel
  import opened ResponseFormatter
  import opened RagService
  import AnswerEnhancer
  import Markers

  /** The request body: a non-empty query and an optional history. */
  datatype ChatRequest = ChatRequest(query: string, history: Option<seq<HistoryEntry>>)

  const InternalErrorMessage: string := "서버 내부 오류가 발생했습니다"

  // ---------------------------------------------------------------------
  // chat

  /** The handlers of `chat`, tried in order. */
  function ChatError(f: Failure): ErrorInfo {
    match f
    case Service(e) =>
      if e.cls == DocumentNotFoundError then ErrorInfo("DocumentNotFoundError", e.message, 404)
      else if e.cls == LLMServiceError || e.cls == RateLimitError then ErrorInfo(ClassName(e.cls), e.message, e.statusCode)
      else ErrorInfo("RAGServiceError", e.message, e.statusCode)
    case Other(_, _) => ErrorInfo("InternalServerError", InternalErrorMessage, 500)
  }

  /** The service's own errors keep their message and status; only the
      LLM errors keep their class name, the rest are reported as
      RAGServiceError; anything else hides its text behind a fixed message
      and 500. */
  lemma ChatErrorMapping(f: Failure)
    ensures var info := ChatError(f);
      && (f.Service? ==> info.message == Text(f))
      && (f.Service? && f.error.cls == DocumentNotFoundError ==> info.statusCode == 404)
      && (f.Service? && f.error.cls != DocumentNotFoundError ==> info.statusCode == StatusOr500(f))
      && (info.typeName == "InternalServerError" <==> f.Other?)
      && (f.Other? ==> info == ErrorInfo("InternalServerError", InternalErrorMessage, 500))
      && (f.Service? && f.error.cls in {LLMServiceError, RateLimitError, DocumentNotFoundError} ==>
            info.typeName == TypeName(f))
      && (f.Service? && f.error.cls !in {LLMServiceError, RateLimitError, DocumentNotFoundError} ==>
            info.typeName == "RAGServiceError")
  {
  }

  /** The inputs under which the sources can be formatted: every
      document the retriever or the chain returns has a path as its
      "source", when it has one. */
  predicate PathInputs(retrieved: Result<seq<Doc>, Failure>, chain: Result<ChainOutput, Failure>) {
    && (retrieved.Ok? ==> PathDocs(retrieved.value))
    && (chain.Ok? && chain.value.ChainDict? && chain.value.sourceDocuments.Some? ==>
          PathDocs(chain.value.sourceDocuments.value))
  }

  lemma AnswerPaths(retrieved: Result<seq<Doc>, Failure>, chain: Result<ChainOutput, Failure>,
                    processingTime: real, tokens: Option<TokenCounts>)
    requires PathInputs(retrieved, chain)
    requires AnswerWithSources(retrieved, chain, processingTime, tokens).Ok?
    ensures PathSources(RawSources(AnswerWithSources(retrieved, chain, processingTime, tokens).value))
  {
    var used := chain.value.sourceDocuments.GetOr(retrieved.value);
    SourcesOfPaths(used);
  }

  /** What `chat` computes before building the response: the RAG result,
      formatted with enhancing. */
  function ChatOutcome(retrieved: Result<seq<Doc>, Failure>, chain: Result<ChainOutput, Failure>,
                       processingTime: real, tokens: Option<TokenCounts>, evaluateQuality: bool)
    : Result<ResponseData, Failure>
    requires PathInputs(retrieved, chain)
  {
    match AnswerWithSources(retrieved, chain, processingTime, tokens)
    case Err(f) => Err(f)
    case Ok(rag) =>
      AnswerPaths(retrieved, chain, processingTime, tokens);
      Formatted(rag, true, evaluateQuality)
  }

  /** The response `chat` returns for an outcome. */
  function ChatReply(query: string, outcome: Result<ResponseData, Failure>): ApiResponse<ResponseData> {
    match outcome
    case Ok(data) => ApiResponse(true, Some(data), None, Meta(query, Some(|data.sources|), None))
    case Err(f) => ApiResponse(false, None, Some(ChatError(f)), Meta(query, None, None))
  }

  /** `chat` */
  method Chat(request: ChatRequest, retrieved: Result<seq<Doc>, Failure>, chain: Result<ChainOutput, Failure>,
              processingTime: real, tokens: Option<TokenCounts>, evaluateQuality: bool)
    returns (response: ApiResponse<ResponseData>)
    requires PathInputs(retrieved, chain)
    ensures response == ChatReply(request.query, ChatOutcome(retrieved, chain, processingTime, tokens, evaluateQuality))
  {
    var ragResult := GetAnswerWithSources(retrieved, chain, processingTime, tokens);
    if ragResult.Err? {
      return ApiResponse(false, None, Some(ChatError(ragResult.error)), Meta(request.query, None, None));
    }
    AnswerPaths(retrieved, chain, processingTime, tokens);
    var responseData := FormatRagResponse(ragResult.value, true, evaluateQuality);
    if responseData.Err? {
      return ApiResponse(false, None, Some(ChatError(responseData.error)), Meta(request.query, None, None));
    }
    var metaInfo := Meta(request.query, Some(|responseData.value.sources|), None);
    return ApiResponse(true, Some(responseData.value), None, metaInfo);
  }

  /** A response succeeds exactly when nothing raised; a success carries
      the data and the number of its sources; a failure carries no data,
      only the query as meta, and the mapped error. */
  lemma ChatReplyShape(query: string, outcome: Result<ResponseData, Failure>)
    ensures var response := ChatReply(query, outcome);
      && (response.success <==> outcome.Ok?)
      && (response.data.Some? <==> response.success)
      && (response.error.Some? <==> !response.success)
      && response.meta.query == query
      && response.meta.historyLength.None?
      && (response.success ==>
            response.meta.totalSources == Some(|response.data.value.sources|))
      && (!response.success ==>
            response.meta.totalSources.None? && response.error.value == ChatError(outcome.error))
  {
  }

  /** An empty retrieval is reported as DocumentNotFoundError with status
      404, whatever the chain would have answered. */
  lemma ChatNoDocuments(query: string, chain: Result<ChainOutput, Failure>, processingTime: real,
                        tokens: Option<TokenCounts>, evaluateQuality: bool)
    requires PathInputs(Ok([]), chain)
    ensures ChatReply(query, ChatOutcome(Ok([]), chain, processingTime, tokens, evaluateQuality)).error
            == Some(ErrorInfo("DocumentNotFoundError", NoDocumentsMessage, 404))
  {
    AnswerWithSourcesFailures(Ok([]), chain, processingTime, tokens);
  }

  /** When the chain answers without a citation marker and some sentence
      of some source occurs in the answer, the enhancer raises NameError
      (the module never imports `os`), and `chat` reports it as an
      internal server error. */
  lemma {:induction false} ChatCitableAnswerFails(query: string, docs: seq<Doc>, output: ChainOutput,
                                                  processingTime: real, tokens: Option<TokenCounts>,
                                                  evaluateQuality: bool)
    requires |docs| > 0 && output.ChainDict?
    requires PathInputs(Ok(docs), Ok(output))
    requires !Markers.HasMarker(ChainAnswer(output))
    requires AnswerEnhancer.SourceCitable(ChainAnswer(output), SourcesOf(output.sourceDocuments.GetOr(docs)))
    ensures ChatReply(query, ChatOutcome(Ok(docs), Ok(output), processingTime, tokens, evaluateQuality)).error
            == Some(ErrorInfo("InternalServerError", InternalErrorMessage, 500))
  {
    var rag := AnswerWithSources(Ok(docs), Ok(output), processingTime, tokens);
    AnswerWithSourcesResult(docs, output, processingTime, tokens);
    assert rag.value.answer == Some(ChainAnswer(output));
    AnswerEnhancer.EnhanceOutcome(ChainAnswer(output), RawSources(rag.value));
  }

  // ---------------------------------------------------------------------
  // conversation

  /** The session id: the cookie parameter, else the request's cookie,
      else a fresh id; an empty id counts as absent. */
  function SessionIdFor(cookie: Option<string>, requestCookie: Option<string>, freshId: string): (id: string)
    ensures cookie.Some? && cookie.value != "" ==> id == cookie.value
    ensures (cookie.None? || cookie.value == "") && requestCookie.Some? && requestCookie.value != "" ==>
              id == requestCookie.value
    ensures (cookie.None? || cookie.value == "") && (requestCookie.None? || requestCookie.value == "") ==>
              id == freshId
  {
    if cookie.Some? && cookie.value != "" then cookie.value
    else if requestCookie.Some? && requestCookie.value != "" then requestCookie.value
    else freshId
  }

  /** The history the conversation uses: the request's, when it is
      non-empty, else the stored one, else none. */
  function UsedHistory(request: ChatRequest, memory: map<string, seq<HistoryEntry>>, id: string)
    : (used: seq<HistoryEntry>)
    ensures request.history.Some? && request.history.value != [] ==> used == request.history.value
    ensures (request.history.None? || request.history.value == []) ==>
              used == (if id in memory then memory[id] else [])
  {
    if request.history.Some? && request.history.value != [] then request.history.value
    else if id in memory then memory[id]
    else []
  }

  /** The session id is one of the three candidates, and it is empty only
      when all three are. */
  lemma SessionIdChoice(cookie: Option<string>, requestCookie: Option<string>, freshId: string)
    ensures var id := SessionIdFor(cookie, requestCookie, freshId);
      && (id == freshId || (cookie.Some? && id == cookie.value) || (requestCookie.Some? && id == requestCookie.value))
      && (id == "" <==> (cookie.None? || cookie.value == "") && (requestCookie.None? || requestCookie.value == "")
                        && freshId == "")
  {
  }

  /** A successful conversation followed, in the same session, by a request
      without a history of its own: the later request is answered with the
      earlier history plus the earlier turn. */
  lemma FollowUpSeesTurn(memory: map<string, seq<HistoryEntry>>, request: ChatRequest, cookie: Option<string>,
                         requestCookie: Option<string>, freshId: string, outcome: Result<(string, ResponseData), Failure>,
                         later: ChatRequest, laterRequestCookie: Option<string>, laterFreshId: string)
    requires outcome.Ok?
    requires later.history.None? || later.history.value == []
    ensures var id := SessionIdFor(cookie, requestCookie, freshId);
      var used := UsedHistory(request, memory, id);
      var next := NextMemory(memory, id, used, request.query, outcome);
      id != "" ==>
        UsedHistory(later, next, SessionIdFor(Some(id), laterRequestCookie, laterFreshId))
        == used + [map["human" := request.query, "ai" := outcome.value.0]]
  {
  }

  /** Every document the conversation chain may return has a path as its
      "source", when it has one. */
  ghost predicate PathChain(chain: seq<Turn> -> Result<ConversationOutput, Failure>) {
    forall turns: seq<Turn> ::
      chain(turns).Ok? && chain(turns).value.ConversationDict? && chain(turns).value.sourceDocuments.Some? ==>
      PathDocs(chain(turns).value.sourceDocuments.value)
  }

  lemma ConversationPaths(history: seq<HistoryEntry>, chain: seq<Turn> -> Result<ConversationOutput, Failure>,
                          processingTime: real)
    requires PathChain(chain)
    requires ConversationResult(Some(history), chain, processingTime).Ok?
    ensures PathSources(RawSources(ConversationResult(Some(history), chain, processingTime).value))
  {
    var output := chain(FormatHistory(history));
    SourcesOfPaths(output.value.sourceDocuments.GetOr([]));
  }

  /** What `conversation` computes before answering and updating the
      memory: the RAG result and its formatted response. */
  function ConversationOutcome(used: seq<HistoryEntry>, chain: seq<Turn> -> Result<ConversationOutput, Failure>,
                               processingTime: real, evaluateQuality: bool)
    : Result<(string, ResponseData), Failure>
    requires PathChain(chain)
  {
    match ConversationResult(Some(used), chain, processingTime)
    case Err(f) => Err(f)
    case Ok(rag) =>
      ConversationPaths(used, chain, processingTime);
      match Formatted(rag, true, evaluateQuality)
      case Err(f) => Err(f)
      case Ok(data) =>
        if rag.answer.None? then Err(Other("KeyError", "'answer'")) else Ok((rag.answer.value, data))
  }

  /** The response `conversation` returns. */
  function ConversationReply(query: string, outcome: Result<(string, ResponseData), Failure>, historyLength: nat)
    : ApiResponse<ResponseData>
  {
    match outcome
    case Ok((_, data)) => ApiResponse(true, Some(data), None, Meta(query, Some(|data.sources|), Some(historyLength)))
    case Err(f) => ApiResponse(false, None, Some(ErrorInfo(TypeName(f), Text(f), StatusOr500(f))), Meta(query, None, None))
  }

  /** The session memory after a conversation: on success, the session's
      entry is the used history followed by the new turn. */
  function NextMemory(memory: map<string, seq<HistoryEntry>>, id: string, used: seq<HistoryEntry>, query: string,
                      outcome: Result<(string, ResponseData), Failure>)
    : map<string, seq<HistoryEntry>>
  {
    if outcome.Err? then memory
    else memory[id := used + [map["human" := query, "ai" := outcome.value.0]]]
  }

  /** A failure leaves the memory as it was. A success stores under the
      session id exactly one more entry than the used history, holding the
      query and the raw answer, and touches no other session. */
  lemma MemoryUpdate(memory: map<string, seq<HistoryEntry>>, id: string, used: seq<HistoryEntry>, query: string,
                     outcome: Result<(string, ResponseData), Failure>)
    ensures var next := NextMemory(memory, id, used, query, outcome);
      && (outcome.Err? ==> next == memory)
      && (outcome.Ok? ==>
            && id in next
            && |next[id]| == |used| + 1
            && next[id][..|used|] == used
            && next[id][|used|] == map["human" := query, "ai" := outcome.value.0]
            && next.Keys == memory.Keys + {id}
            && (forall other | other in memory && other != id :: next[other] == memory[other]))
  {
  }

  /** A conversation fails with a RateLimitError (429) or an
      LLMServiceError (503) from the service, or with the enhancer's
      NameError; the KeyError for a missing answer cannot happen. */
  lemma ConversationFailures(used: seq<HistoryEntry>, chain: seq<Turn> -> Result<ConversationOutput, Failure>,
                             processingTime: real, evaluateQuality: bool)
    requires PathChain(chain)
    ensures var outcome := ConversationOutcome(used, chain, processingTime, evaluateQuality);
      outcome.Err? ==>
        || (outcome.error.Service? && outcome.error.error.cls == RateLimitError && outcome.error.error.statusCode == 429)
        || (outcome.error.Service? && outcome.error.error.cls == LLMServiceError && outcome.error.error.statusCode == 503)
        || outcome.error == AnswerEnhancer.OsNotDefined
  {
    ConversationOutcomes(Some(used), chain, processingTime);
    var rag := ConversationResult(Some(used), chain, processingTime);
    if rag.Ok? {
      ConversationPaths(used, chain, processingTime);
      AnswerEnhancer.EnhanceOutcome(rag.value.answer.GetOr(""), RawSources(rag.value));
    } else {
      var output := chain(FormatHistory(used));
      var cause :=
        if output.Err? then output.error
        else if output.value.ConversationOther? then NoGet(output.value.typeName)
        else Other("KeyError", "'answer'");
      LlmErrorClassification(cause);
    }
  }

  /** The error responses of `conversation`: the query as the only meta,
      and the failure's class name, text and status, which are those of a
      RateLimitError, an LLMServiceError, or the enhancer's NameError with
      500. A success reports the length of the history used. */
  lemma ConversationErrors(query: string, used: seq<HistoryEntry>,
                           chain: seq<Turn> -> Result<ConversationOutput, Failure>,
                           processingTime: real, evaluateQuality: bool)
    requires PathChain(chain)
    ensures var outcome := ConversationOutcome(used, chain, processingTime, evaluateQuality);
      var response := ConversationReply(query, outcome, |used|);
      && (response.success <==> outcome.Ok?)
      && (response.success ==> response.meta.historyLength == Some(|used|))
      && (!response.success ==>
            response.meta == Meta(query, None, None) &&
            (|| (response.error.value.typeName == "RateLimitError" && response.error.value.statusCode == 429)
             || (response.error.value.typeName == "LLMServiceError" && response.error.value.statusCode == 503)
             || response.error.value == ErrorInfo("NameError", "name 'os' is not defined", 500)))
  {
    ConversationFailures(used, chain, processingTime, evaluateQuality);
  }

  /** The answering steps of `conversation`: the service call, the
      formatting, and the lookup of the raw answer for the memory. */
  method AnswerConversation(used: seq<HistoryEntry>, chain: seq<Turn> -> Result<ConversationOutput, Failure>,
                            processingTime: real, evaluateQuality: bool)
    returns (outcome: Result<(string, ResponseData), Failure>)
    requires PathChain(chain)
    ensures outcome == ConversationOutcome(used, chain, processingTime, evaluateQuality)
  {
    var ragResult := GetConversationResponse(Some(used), chain, processingTime);
    if ragResult.Err? {
      return Err(ragResult.error);
    }
    ConversationPaths(used, chain, processingTime);
    var responseData := FormatRagResponse(ragResult.value, true, evaluateQuality);
    if responseData.Err? {
      return Err(responseData.error);
    }
    if ragResult.value.answer.None? {
      return Err(Other("KeyError", "'answer'"));
    }
    return Ok((ragResult.value.answer.value, responseData.value));
  }

  /** The process-wide session memory: one history per session id. */
  class SessionStore {
    var memory: map<string, seq<HistoryEntry>>

    constructor ()
      ensures memory == map[]
    {
      memory := map[];
    }

    /** `conversation` */
    method Conversation(request: ChatRequest, cookie: Option<string>, requestCookie: Option<string>,
                        freshId: string, chain: seq<Turn> -> Result<ConversationOutput, Failure>,
                        processingTime: real, evaluateQuality: bool)
      returns (response: ApiResponse<ResponseData>)
      requires PathChain(chain)
      modifies this
      ensures var id := SessionIdFor(cookie, requestCookie, freshId);
        var used := UsedHistory(request, old(memory), id);
        var outcome := ConversationOutcome(used, chain, processingTime, evaluateQuality);
        && response == ConversationReply(request.query, outcome, |used|)
        && memory == NextMemory(old(memory), id, used, request.query, outcome)
    {
      var sessionId := cookie.GetOr("");
      if sessionId == "" {
        sessionId := requestCookie.GetOr("");
      }
      if sessionId == "" {
        sessionId := freshId;
      }
      assert sessionId == SessionIdFor(cookie, requestCookie, freshId);
      var sessionHistory := if sessionId in memory then memory[sessionId] else [];
      if request.history.Some? && request.history.value != [] {
        sessionHistory := request.history.value;
      }
      assert sessionHistory == UsedHistory(request, memory, sessionId);
      var outcome := AnswerConversation(sessionHistory, chain, processingTime, evaluateQuality);
      response := Respond(request.query, sessionId, sessionHistory, outcome);
    }

    /** The end of `conversation`: the response for the outcome and, on
        success only, the new turn stored under the session id. */
    method Respond(query: string, sessionId: string, sessionHistory: seq<HistoryEntry>,
                   outcome: Result<(string, ResponseData), Failure>)
      returns (response: ApiResponse<ResponseData>)
      modifies this
      ensures response == ConversationReply(query, outcome, |sessionHistory|)
      ensures memory == NextMemory(old(memory), sessionId, sessionHistory, query, outcome)
    {
      if outcome.Err? {
        var f := outcome.error;
        return ApiResponse(false, None, Some(ErrorInfo(TypeName(f), Text(f), StatusOr500(f))), Meta(query, None, None));
      }
      var (answer, responseData) := outcome.value;
      var metaInfo := Meta(query, Some(|responseData.sources|), Some(|sessionHistory|));
      memory := memory[sessionId := sessionHistory + [map["human" := query, "ai" := answer]]];
      return ApiResponse(true, Some(responseData), None, metaInfo);
    }
  }
}

=== FILE: common.dfy ===
/** Values and text operations shared by every part of the model.

    Python strings are sequences of Unicode code points, so `string`
    (a `seq<char>` of Unicode scalar values) stands for `str` and `|s|`
    for `len(s)`. The helpers here are the few pieces of the Python
    standard library the service relies on: `in` on strings, `split`,
    `join`, `replace`, `endswith`, `int()` of a digit string,
    `os.path.basename` and `str.lower`. */
module Common {

  datatype Option<+T> = None | Some(value: T) {
    /** `x if x is not None else default` */
    function GetOr(default: T): T {
      match this
      case Some(v) => v
      case None => default
    }
  }

  datatype Result<+T, +E> = Ok(value: T) | Err(error: E)

  /** A value held in one of the service's dictionaries: document metadata,
      the quality-metrics dictionary. */
  datatype Value =
    | Str(s: string)
    | Int(i: int)
    | Real(r: real)
    | Bool(b: bool)
    | List(items: seq<Value>)
    | Nil

  /** A source entry as the RAG service returns it: a dictionary whose
      "content", "metadata" and "score" keys may each be missing. */
  datatype RawSource = RawSource(
    content: Option<string>,
    metadata: Option<map<string, Value>>,
    score: Option<real>)

  /** Python truthiness of a value. */
  predicate Truthy(v: Value) {
    match v
    case Str(s) => s != ""
    case Int(i) => i != 0
    case Real(r) => r != 0.0
    case Bool(b) => b
    case List(items) => items != []
    case Nil => false
  }

  /** `d.get(key, default)` */
  function Get(d: map<string, Value>, key: string, default: Value): (v: Value)
    ensures key in d ==> v == d[key]
    ensures key !in d ==> v == default
  {
    if key in d then d[key] else default
  }

  // ---------------------------------------------------------------------
  // Substrings

  predicate OccursAt(s: string, p: string, i: int) {
    0 <= i && i + |p| <= |s| && s[i..i + |p|] == p
  }

  /** Python's `p in s`. */
  predicate Contains(s: string, p: string) {
    exists i | 0 <= i <= |s| - |p| :: OccursAt(s, p, i)
  }

  predicate StartsWith(s: string, p: string) {
    |p| <= |s| && s[..|p|] == p
  }

  /** Python's `s.endswith(p)`. */
  predicate EndsWith(s: string, p: string) {
    |p| <= |s| && s[|s| - |p|..] == p
  }

  lemma ContainsMiddle(a: string, p: string, b: string)
    ensures Contains(a + p + b, p)
  {
    var s := a + p + b;
    assert s[|a|..|a| + |p|] == p;
    assert OccursAt(s, p, |a|);
  }

  /** Both halves of a text that occurs in `s` occur in `s`. */
  lemma ContainsParts(s: string, a: string, b: string)
    requires Contains(s, a + b)
    ensures Contains(s, a) && Contains(s, b)
  {
    var ab := a + b;
    var i :| 0 <= i <= |s| - |ab| && OccursAt(s, ab, i);
    assert s[i..i + |a|] == ab[..|a|] == a;
    assert s[i + |a|..i + |a| + |b|] == ab[|a|..] == b;
    assert OccursAt(s, a, i);
    assert OccursAt(s, b, i + |a|);
  }

  /** The first position at or after `i` where `p` occurs in `s`, as
      `s.find(p, i)` returns it (with `None` for -1). */
  function FindFrom(s: string, p: string, i: nat): (r: Option<nat>)
    requires |p| > 0
    decreases |s| - i
    ensures r.Some? ==> i <= r.value && OccursAt(s, p, r.value)
    ensures r.Some? ==> forall k | i <= k < r.value :: !OccursAt(s, p, k)
    ensures r.None? ==> forall k | i <= k :: !OccursAt(s, p, k)
  {
    if i + |p| > |s| then None
    else if s[i..i + |p|] == p then Some(i)
    else FindFrom(s, p, i + 1)
  }

  lemma FindFromContains(s: string, p: string)
    requires |p| > 0
    ensures FindFrom(s, p, 0).Some? <==> Contains(s, p)
  {
    var r := FindFrom(s, p, 0);
    if r.Some? {
      assert OccursAt(s, p, r.value);
    }
  }

  // ---------------------------------------------------------------------
  // split, join, replace

  /** Python's `s.split(sep)` for a non-empty separator: the pieces between
      the non-overlapping occurrences of `sep`, found left to right. */
  function Split(s: string, sep: string): (pieces: seq<string>)
    requires |sep| > 0
    decreases |s|
    ensures |pieces| >= 1
  {
    match FindFrom(s, sep, 0)
    case None => [s]
    case Some(i) => [s[..i]] + Split(s[i + |sep|..], sep)
  }

  /** Python's `sep.join(parts)`. */
  function Join(parts: seq<string>, sep: string): string {
    if |parts| == 0 then ""
    else if |parts| == 1 then parts[0]
    else parts[0] + sep + Join(parts[1..], sep)
  }

  /** Joining the pieces of a split with the same separator gives the text
      back. */
  lemma {:induction false} JoinSplit(s: string, sep: string)
    requires |sep| > 0
    ensures Join(Split(s, sep), sep) == s
    decreases |s|
  {
    match FindFrom(s, sep, 0)
    case None =>
    case Some(i) =>
      var rest := s[i + |sep|..];
      var tail := Split(rest, sep);
      var pieces := [s[..i]] + tail;
      assert Split(s, sep) == pieces;
      assert pieces[0] == s[..i] && pieces[1..] == tail;
      calc {
        Join(pieces, sep);
        s[..i] + sep + Join(tail, sep);
        { JoinSplit(rest, sep); }
        s[..i] + sep + rest;
        s;
      }
  }

  /** Python's `s.replace(target, replacement)` for a non-empty `target`: every
      non-overlapping occurrence, found left to right, is replaced. */
  function ReplaceAll(s: string, target: string, replacement: string): string
    requires |target| > 0
  {
    Join(Split(s, target), replacement)
  }

  /** `replace` changes nothing when `target` does not occur, and leaves `replacement`
      in the text when it does. */
  lemma {:induction false} ReplaceAllEffect(s: string, target: string, replacement: string)
    requires |target| > 0
    ensures !Contains(s, target) ==> ReplaceAll(s, target, replacement) == s
    ensures Contains(s, target) ==> Contains(ReplaceAll(s, target, replacement), replacement)
  {
    FindFromContains(s, target);
    match FindFrom(s, target, 0)
    case None =>
    case Some(i) =>
      var tail := Split(s[i + |target|..], target);
      assert Split(s, target) == [s[..i]] + tail;
      assert ([s[..i]] + tail)[1..] == tail;
      ContainsMiddle(s[..i], replacement, Join(tail, replacement));
  }

  // ---------------------------------------------------------------------
  // Decimal digits and numbers

  /** `\d` of the service's regular expressions, restricted to ASCII. */
  predicate IsDigit(c: char) {
    '0' <= c <= '9'
  }

  predicate AllDigits(s: string) {
    forall k | 0 <= k < |s| :: IsDigit(s[k])
  }

  function DigitChar(d: nat): (c: char)
    requires d < 10
    ensures IsDigit(c) && c as int - '0' as int == d
  {
    ('0' as int + d) as char
  }

  /** `int(ds)` for a string of ASCII digits. */
  function DecimalValue(ds: string): nat
    requires AllDigits(ds)
    decreases |ds|
  {
    if |ds| == 0 then 0
    else DecimalValue(ds[..|ds| - 1]) * 10 + (ds[|ds| - 1] as int - '0' as int)
  }

  /** CPython's default limit on the digits `int` converts from a string
      (`sys.int_info.default_max_str_digits`, from Python 3.11 on). */
  const MaxStrDigits: nat := 4300

  /** `int(ds)` for a string of ASCII digits: its value, or None for the
      ValueError raised when it has more digits than the limit. */
  function ParseInt(ds: string): Option<nat>
    requires AllDigits(ds)
  {
    if |ds| > MaxStrDigits then None else Some(DecimalValue(ds))
  }

  /** `str(n)` for a natural number. */
  function NatToString(n: nat): (r: string)
    decreases n
    ensures |r| >= 1 && AllDigits(r)
  {
    if n < 10 then [DigitChar(n)] else NatToString(n / 10) + [DigitChar(n % 10)]
  }

  /** `str(n)` for any integer. */
  function IntToString(n: int): string {
    if n < 0 then "-" + NatToString(-n) else NatToString(n)
  }

  /** Printing a number in decimal and reading it back gives the number. */
  lemma {:induction false} DecimalRoundTrip(n: nat)
    ensures DecimalValue(NatToString(n)) == n
    decreases n
  {
    if n >= 10 {
      DecimalRoundTrip(n / 10);
      var r := NatToString(n);
      assert r[..|r| - 1] == NatToString(n / 10);
    }
  }

  // ---------------------------------------------------------------------
  // Paths and case

  /** `os.path.basename(p)` on POSIX: what follows the last "/". */
  function Basename(p: string): (b: string)
    decreases |p|
    ensures EndsWith(p, b)
    ensures forall k | 0 <= k < |b| :: b[k] != '/'
    ensures |b| < |p| ==> p[|p| - |b| - 1] == '/'
  {
    if |p| == 0 then ""
    else if p[|p| - 1] == '/' then ""
    else Basename(p[..|p| - 1]) + [p[|p| - 1]]
  }

  /** `os.path.join(a, b)` on POSIX for two components. */
  function PathJoin(a: string, b: string): (r: string)
    ensures EndsWith(r, b)
  {
    if |b| > 0 && b[0] == '/' then b
    else if a == [] || a[|a| - 1] == '/' then a + b
    else a + "/" + b
  }

  /** `c.lower()` for the characters whose lower case is an ASCII letter:
      the 26 capitals and the Kelvin sign. */
  function LowerChar(c: char): char {
    if 'A' <= c <= 'Z' then (c as int + 32) as char
    else if c == '\U{212A}' then 'k'
    else c
  }

  /** `s.lower()`, as far as the ASCII phrases it is searched for can tell. */
  function Lower(s: string): (r: string)
    ensures |r| == |s|
    ensures forall k | 0 <= k < |s| :: r[k] == LowerChar(s[k])
  {
    seq(|s|, k requires 0 <= k < |s| => LowerChar(s[k]))
  }
}

=== FILE: document_service.dfy ===
/** Document ingestion and deletion: choosing a loader by file suffix,
    merging the caller's metadata with the service's own keys (in place),
    stamping every loaded document with it, adding the chunks to the
    vector store, and cleaning up the per-document directory on failure.

    The filesystem is the set of directory paths that exist; the vector
    store is the sequence of chunks added to it. Copying, loading,
    splitting and persisting are library calls: their outcomes, the fresh
    document id and the clock readings are parameters. */
module DocumentService {
  import opened Common
  import opened Exceptions

  /** `os.path.join("data", "documents")` */
  const DocumentsDir: string := "data/documents"

  const UnsupportedFormatMessage: string :=
    "지원하지 않는 파일 형식입니다. 지원되는 형식: .pdf, .txt, .csv, .html"

  // ---------------------------------------------------------------------
  // Loading

  datatype Loader = PdfLoader | TextLoader | CsvLoader | HtmlLoader

  /** The loader `load_document` picks: the first of .pdf, .txt, .csv and
      .html the path ends with, case-sensitively. */
  function LoaderFor(path: string): Result<Loader, Failure> {
    if EndsWith(path, ".pdf") then Ok(PdfLoader)
    else if EndsWith(path, ".txt") then Ok(TextLoader)
    else if EndsWith(path, ".csv") then Ok(CsvLoader)
    else if EndsWith(path, ".html") then Ok(HtmlLoader)
    else Err(Service(NewInvalidFileFormatError(UnsupportedFormatMessage)))
  }

  predicate Supported(path: string) {
    EndsWith(path, ".pdf") || EndsWith(path, ".txt") || EndsWith(path, ".csv") || EndsWith(path, ".html")
  }

  /** A path is loaded exactly when it has one of the four suffixes, by
      the loader of that suffix; any other path is refused with an
      InvalidFileFormatError (400) that lists the four formats. */
  lemma LoaderDispatch(path: string)
    ensures LoaderFor(path).Ok? <==> Supported(path)
    ensures LoaderFor(path) == Ok(PdfLoader) <==> EndsWith(path, ".pdf")
    ensures LoaderFor(path) == Ok(HtmlLoader) ==> EndsWith(path, ".html")
    ensures LoaderFor(path) == Ok(TextLoader) ==> EndsWith(path, ".txt")
    ensures LoaderFor(path) == Ok(CsvLoader) ==> EndsWith(path, ".csv")
    ensures LoaderFor(path).Err? ==>
      && LoaderFor(path).error.Service?
      && LoaderFor(path).error.error.cls == InvalidFileFormatError
      && LoaderFor(path).error.error.statusCode == 400
      && LoaderFor(path).error.error.message == UnsupportedFormatMessage
  {
  }

  /** Upper-case suffixes, the short HTML suffix and names without an
      extension are refused. */
  lemma UnsupportedNames()
    ensures LoaderFor("report.PDF").Err?
    ensures LoaderFor("page.htm").Err?
    ensures LoaderFor("README").Err?
    ensures LoaderFor("notes.txt.pdf") == Ok(PdfLoader)
  {
    assert "report.PDF"[6..] == ".PDF";
    assert "page.htm"[4..] == ".htm";
    assert "page.htm"[3..] == "e.htm";
    assert "README"[2..] == "ADME";
    assert "notes.txt.pdf"[9..] == ".pdf";
  }

  /** Where an upload is stored: data/documents/<id>/<filename>. */
  function TargetPath(documentId: string, filename: string): string {
    PathJoin(PathJoin(DocumentsDir, documentId), filename)
  }

  /** What `os.path.join` puts before a relative second component. */
  function JoinPrefix(a: string): (p: string)
    ensures p == [] || p[|p| - 1] == '/'
  {
    if a == [] || a[|a| - 1] == '/' then a else a + "/"
  }

  /** A "/"-free suffix of a text that follows a "/" (or nothing) is a
      suffix of that text. */
  lemma SuffixAfterSlash(prefix: string, name: string, ext: string)
    requires prefix == [] || prefix[|prefix| - 1] == '/'
    requires forall k | 0 <= k < |ext| :: ext[k] != '/'
    ensures EndsWith(prefix + name, ext) <==> EndsWith(name, ext)
  {
    var s := prefix + name;
    if |ext| <= |name| {
      assert s[|s| - |ext|..] == name[|name| - |ext|..];
    } else if |ext| <= |s| {
      var j := |ext| - |name| - 1;
      assert s[|s| - |ext| + j] == prefix[|prefix| - 1];
      assert s[|s| - |ext|..][j] != ext[j];
    }
  }

  /** A "/"-free suffix of the stored path is a suffix of the file name, and
      conversely: the loader is chosen by the uploaded file's own name. */
  lemma TargetSuffix(documentId: string, filename: string, ext: string)
    requires forall k | 0 <= k < |ext| :: ext[k] != '/'
    ensures EndsWith(TargetPath(documentId, filename), ext) <==> EndsWith(filename, ext)
  {
    var dir := PathJoin(DocumentsDir, documentId);
    if !(|filename| > 0 && filename[0] == '/') {
      assert PathJoin(dir, filename) == JoinPrefix(dir) + filename;
      SuffixAfterSlash(JoinPrefix(dir), filename, ext);
    }
  }

  // ---------------------------------------------------------------------
  // Metadata

  /** The service's own metadata keys for an upload. */
  function SystemMetadata(documentId: string, filename: string, description: Option<string>,
                          source: string, createdAt: string): map<string, Value>
  {
    map["document_id" := Str(documentId),
        "filename" := Str(filename),
        "description" := (if description.Some? then Str(description.value) else Nil),
        "source" := Str(source),
        "created_at" := Str(createdAt)]
  }

  /** `doc_metadata = metadata or {}` followed by `update(system)`. */
  function Merged(caller: map<string, Value>, system: map<string, Value>): map<string, Value> {
    caller + system
  }

  /** The merged metadata has the caller's keys and the five system keys;
      the system keys carry the upload's values, overriding the caller's,
      and every other caller key keeps its value. */
  lemma MergedMetadata(caller: map<string, Value>, documentId: string, filename: string,
                       description: Option<string>, source: string, createdAt: string)
    ensures var merged := Merged(caller, SystemMetadata(documentId, filename, description, source, createdAt));
      && merged.Keys == caller.Keys + {"document_id", "filename", "description", "source", "created_at"}
      && merged["document_id"] == Str(documentId)
      && merged["filename"] == Str(filename)
      && merged["description"] == (if description.Some? then Str(description.value) else Nil)
      && merged["source"] == Str(source)
      && merged["created_at"] == Str(createdAt)
      && (forall key | key in caller && key !in {"document_id", "filename", "description", "source", "created_at"} ::
            merged[key] == caller[key])
  {
  }

  /** A loaded document or a chunk: its text and its metadata. */
  datatype Chunk = Chunk(content: string, metadata: map<string, Value>)

  /** Documents after `doc.metadata.update(merged)`. */
  function Stamped(docs: seq<Chunk>, merged: map<string, Value>): (r: seq<Chunk>)
    ensures |r| == |docs|
    ensures forall k | 0 <= k < |docs| :: r[k] == Chunk(docs[k].content, docs[k].metadata + merged)
  {
    seq(|docs|, k requires 0 <= k < |docs| => Chunk(docs[k].content, docs[k].metadata + merged))
  }

  /** Every stamped document keeps its text, carries every merged key with
      the merged value, and keeps the keys the merge does not touch. */
  lemma StampedCarriesMetadata(docs: seq<Chunk>, merged: map<string, Value>)
    ensures forall k | 0 <= k < |docs| ::
      && Stamped(docs, merged)[k].content == docs[k].content
      && Stamped(docs, merged)[k].metadata.Keys == docs[k].metadata.Keys + merged.Keys
      && (forall key | key in merged :: Stamped(docs, merged)[k].metadata[key] == merged[key])
      && (forall key | key in docs[k].metadata && key !in merged ::
            Stamped(docs, merged)[k].metadata[key] == docs[k].metadata[key])
  {
  }

  // ---------------------------------------------------------------------
  // Failures

  /** The handler of `process_document`: an InvalidFileFormatError is
      re-raised, anything else becomes a DocumentProcessingError. */
  function ProcessFailure(f: Failure): Failure {
    if f.Service? && f.error.cls == InvalidFileFormatError then f
    else Service(NewDocumentProcessingError("문서 처리 중 오류 발생: " + Text(f)))
  }

  lemma ProcessFailureKinds(f: Failure)
    ensures ProcessFailure(f).Service?
    ensures ProcessFailure(f).error.cls in {InvalidFileFormatError, DocumentProcessingError}
    ensures ProcessFailure(f).error.cls == InvalidFileFormatError <==>
              f.Service? && f.error.cls == InvalidFileFormatError
    ensures ProcessFailure(f).error.cls == DocumentProcessingError ==>
              ProcessFailure(f).error.statusCode == 500 &&
              ProcessFailure(f).error.message == "문서 처리 중 오류 발생: " + Text(f)
  {
  }

  /** The loaded documents of an upload, or the first failure before
      its metadata is merged: the copy, the choice of loader, the
      loading. */
  function Loaded(copyError: Option<Failure>, target: string, loaded: Result<seq<Document>, Failure>)
    : Result<seq<Document>, Failure>
  {
    if copyError.Some? then Err(copyError.value)
    else if LoaderFor(target).Err? then Err(LoaderFor(target).error)
    else loaded
  }

  /** A file of an unsupported kind is refused with the 400 error, whatever
      the loader would have returned, once the copy succeeded. */
  lemma UnsupportedUpload(documentId: string, filename: string, loaded: Result<seq<Document>, Failure>)
    requires !Supported(filename)
    ensures var outcome := Loaded(None, TargetPath(documentId, filename), loaded);
      outcome == Err(Service(NewInvalidFileFormatError(UnsupportedFormatMessage)))
      && ProcessFailure(outcome.error) == outcome.error
  {
    TargetSuffix(documentId, filename, ".pdf");
    TargetSuffix(documentId, filename, ".txt");
    TargetSuffix(documentId, filename, ".csv");
    TargetSuffix(documentId, filename, ".html");
  }

  // ---------------------------------------------------------------------
  // Objects

  /** A loaded document; the loop stamps its metadata in place. */
  class Document {
    var pageContent: string
    var metadata: map<string, Value>

    constructor (pageContent: string, metadata: map<string, Value>)
      ensures this.pageContent == pageContent && this.metadata == metadata
    {
      this.pageContent := pageContent;
      this.metadata := metadata;
    }
  }

  /** A metadata dictionary the caller hands over; a non-empty one is
      updated in place. */
  class MetadataDict {
    var entries: map<string, Value>

    constructor (entries: map<string, Value>)
      ensures this.entries == entries
    {
      this.entries := entries;
    }

    /** `dict.update(other)`: other's entries win. */
    method Update(other: map<string, Value>)
      modifies this
      ensures entries == old(entries) + other
    {
      entries := entries + other;
    }
  }

  /** `for doc in documents: doc.metadata.update(merged)`. A document
      listed twice is stamped twice, to the same effect. */
  method StampAll(documents: seq<Document>, merged: map<string, Value>)
    modifies documents
    ensures forall d | d in documents :: d.metadata == old(d.metadata) + merged
    ensures forall d | d in documents :: d.pageContent == old(d.pageContent)
    ensures Snapshot(documents) == Stamped(old(Snapshot(documents)), merged)
  {
    for i := 0 to |documents|
      invariant forall d | d in documents[..i] :: d.metadata == old(d.metadata) + merged
      invariant forall d | d in documents && d !in documents[..i] :: d.metadata == old(d.metadata)
      invariant forall d | d in documents :: d.pageContent == old(d.pageContent)
    {
      var doc := documents[i];
      assert documents[..i + 1] == documents[..i] + [doc];
      if doc in documents[..i] {
        assert doc.metadata + merged == old(doc.metadata) + merged;
      }
      doc.metadata := doc.metadata + merged;
    }
    assert documents[..|documents|] == documents;
  }

  /** The documents' text and metadata as they are at this point. */
  function Snapshot(docs: seq<Document>): (s: seq<Chunk>)
    reads docs
    ensures |s| == |docs|
    ensures forall k | 0 <= k < |docs| :: s[k] == Chunk(docs[k].pageContent, docs[k].metadata)
  {
    seq(|docs|, k requires 0 <= k < |docs| reads docs => Chunk(docs[k].pageContent, docs[k].metadata))
  }

  function Documents(loaded: Result<seq<Document>, Failure>): seq<Document> {
    if loaded.Ok? then loaded.value else []
  }

  function Dicts(metadata: Option<MetadataDict>): set<MetadataDict> {
    if metadata.Some? then {metadata.value} else {}
  }

  /** What `process_document` returns. */
  datatype ProcessedDocument = ProcessedDocument(
    documentId: string,
    filename: string,
    description: Option<string>,
    metadata: MetadataDict,
    createdAt: string,
    chunksCount: nat)

  /** The caller's metadata entries; no dictionary counts as an empty one. */
  function CallerEntries(metadata: Option<MetadataDict>): map<string, Value>
    reads Dicts(metadata)
  {
    if metadata.Some? then metadata.value.entries else map[]
  }

  /** Every document carries `merged` over its former metadata; a
      non-empty caller dictionary has become `merged`, an empty one is
      left as it was. */
  twostate predicate MetadataStamped(metadata: Option<MetadataDict>, documents: seq<Document>,
                                     merged: map<string, Value>)
    reads Dicts(metadata), documents
  {
    var caller := old(CallerEntries(metadata));
    && (forall d | d in documents :: d.metadata == old(d.metadata) + merged)
    && (metadata.Some? && |caller| == 0 ==> metadata.value.entries == caller)
    && (|caller| > 0 ==> metadata.Some? && metadata.value.entries == merged)
  }

  /** The part of `process_document` after loading: the metadata is
      merged into a non-empty caller dictionary, else into a new one,
      every document is stamped with it, and the stamped documents are
      split. */
  method Ingest(documents: seq<Document>, metadata: Option<MetadataDict>, system: map<string, Value>,
                split: seq<Chunk> -> seq<Chunk>)
    returns (docMetadata: MetadataDict, chunks: seq<Chunk>)
    modifies Dicts(metadata), documents
    ensures var caller := old(CallerEntries(metadata));
      var merged := Merged(caller, system);
      && docMetadata.entries == merged
      && chunks == split(Stamped(old(Snapshot(documents)), merged))
      && MetadataStamped(metadata, documents, merged)
      && (if |caller| == 0 then fresh(docMetadata) else docMetadata == metadata.value)
  {
    if metadata.Some? && |metadata.value.entries| != 0 {
      docMetadata := metadata.value;
    } else {
      docMetadata := new MetadataDict(map[]);
    }
    docMetadata.Update(system);
    StampAll(documents, docMetadata.entries);
    chunks := split(Snapshot(documents));
  }

  /** What `process_document` leaves behind once the documents are
      loaded, between the store's directories and chunks before (`dirs0`,
      `store0`) and after (`dirs`, `store`). */
  twostate predicate Stored(dirs0: set<string>, store0: seq<Chunk>, dirs: set<string>, store: seq<Chunk>,
                            new r: Result<ProcessedDocument, Failure>, documentId: string, originalFilename: string,
                            description: Option<string>, metadata: Option<MetadataDict>, documents: seq<Document>,
                            targetFilePath: string, createdAt: string, split: seq<Chunk> -> seq<Chunk>,
                            new storeError: Option<Failure>, finishedAt: string)
    reads Dicts(metadata), documents, if r.Ok? then {r.value.metadata} else {}
  {
    var documentDir := PathJoin(DocumentsDir, documentId);
    var caller := old(CallerEntries(metadata));
    var merged := Merged(caller, SystemMetadata(documentId, originalFilename, description, targetFilePath, createdAt));
    var chunks := split(Stamped(old(Snapshot(documents)), merged));
    && MetadataStamped(metadata, documents, merged)
    && (storeError.Some? ==>
          && r == Err(ProcessFailure(storeError.value))
          && dirs == dirs0 - {documentDir}
          && store == store0)
    && (storeError.None? ==>
          && r.Ok?
          && dirs == dirs0 + {documentDir}
          && store == store0 + chunks
          && r.value.documentId == documentId
          && r.value.filename == originalFilename
          && r.value.description == description
          && r.value.createdAt == finishedAt
          && r.value.chunksCount == |chunks|
          && r.value.metadata.entries == merged
          && (if |caller| == 0 then fresh(r.value.metadata) else r.value.metadata == metadata.value))
  }

  // ---------------------------------------------------------------------
  // The service

  class DocumentStore {
    /** The directories that exist. */
    var directories: set<string>
    /** The chunks in the vector store, in the order they were added. */
    var vectorStore: seq<Chunk>

    /** The constructor creates the documents directory. */
    constructor (existing: set<string>, stored: seq<Chunk>)
      ensures directories == existing + {DocumentsDir}
      ensures vectorStore == stored
    {
      directories := existing + {DocumentsDir};
      vectorStore := stored;
    }

    /** `process_document`. The upload is stored under a fresh id; its
        loaded documents are stamped with the merged metadata (a non-empty
        caller dictionary is the one updated), split by `split` and added
        to the store. On any failure the upload's directory is removed and
        the failure is reported through `ProcessFailure`; metadata already
        merged stays merged. */
    method ProcessDocument(originalFilename: string, description: Option<string>, metadata: Option<MetadataDict>,
                           documentId: string, copyError: Option<Failure>, loaded: Result<seq<Document>, Failure>,
                           createdAt: string, split: seq<Chunk> -> seq<Chunk>, storeError: Option<Failure>,
                           finishedAt: string)
      returns (r: Result<ProcessedDocument, Failure>)
      modifies this, Dicts(metadata), Documents(loaded)
      ensures var documentDir := PathJoin(DocumentsDir, documentId);
        match Loaded(copyError, TargetPath(documentId, originalFilename), loaded)
        case Err(f) =>
          && r == Err(ProcessFailure(f))
          && directories == old(directories) - {documentDir}
          && vectorStore == old(vectorStore)
          && unchanged(Dicts(metadata))
          && unchanged(Documents(loaded))
        case Ok(documents) =>
          Stored(old(directories), old(vectorStore), directories, vectorStore, r, documentId, originalFilename,
                 description, metadata, documents, TargetPath(documentId, originalFilename), createdAt, split,
                 storeError, finishedAt)
    {
      // The upload's directory is created before the copy and removed on
      // any failure; only the end result shows in `directories`.
      var documentDir := PathJoin(DocumentsDir, documentId);
      var targetFilePath := PathJoin(documentDir, originalFilename);
      assert targetFilePath == TargetPath(documentId, originalFilename);
      var outcome := Loaded(copyError, targetFilePath, loaded);
      if outcome.Err? {
        directories := directories - {documentDir};
        return Err(ProcessFailure(outcome.error));
      }
      r := Ingested(originalFilename, description, metadata, documentId, outcome.value, targetFilePath,
                    createdAt, split, storeError, finishedAt);
    }

    /** `process_document` once the documents are loaded: the metadata is
        merged and stamped, the documents are split and the chunks stored;
        a failure to store removes the upload's directory. */
    method Ingested(originalFilename: string, description: Option<string>, metadata: Option<MetadataDict>,
                    documentId: string, documents: seq<Document>, targetFilePath: string,
                    createdAt: string, split: seq<Chunk> -> seq<Chunk>, storeError: Option<Failure>,
                    finishedAt: string)
      returns (r: Result<ProcessedDocument, Failure>)
      modifies this, Dicts(metadata), documents
      ensures Stored(old(directories), old(vectorStore), directories, vectorStore, r, documentId, originalFilename,
                     description, metadata, documents, targetFilePath, createdAt, split, storeError, finishedAt)
    {
      var system := SystemMetadata(documentId, originalFilename, description, targetFilePath, createdAt);
      var docMetadata, chunks := Ingest(documents, metadata, system, split);
      r := Commit(documentId, originalFilename, description, docMetadata, chunks, storeError, finishedAt);
    }

    /** The last step of `process_document`: the chunks are added to the
        store, or, when adding them fails, the upload's directory is
        removed and the failure reported. */
    method Commit(documentId: string, originalFilename: string, description: Option<string>,
                  docMetadata: MetadataDict, chunks: seq<Chunk>, storeError: Option<Failure>, finishedAt: string)
      returns (r: Result<ProcessedDocument, Failure>)
      modifies this
      ensures storeError.Some? ==>
                && r == Err(ProcessFailure(storeError.value))
                && directories == old(directories) - {PathJoin(DocumentsDir, documentId)}
                && vectorStore == old(vectorStore)
      ensures storeError.None? ==>
                && r == Ok(ProcessedDocument(documentId, originalFilename, description, docMetadata, finishedAt, |chunks|))
                && directories == old(directories) + {PathJoin(DocumentsDir, documentId)}
                && vectorStore == old(vectorStore) + chunks
    {
      var documentDir := PathJoin(DocumentsDir, documentId);
      if storeError.Some? {
        directories := directories - {documentDir};
        return Err(ProcessFailure(storeError.value));
      }
      vectorStore := vectorStore + chunks;
      directories := directories + {documentDir};
      return Ok(ProcessedDocument(documentId, originalFilename, description, docMetadata, finishedAt, |chunks|));
    }

    /** `delete_document`: false when the document's directory does not
        exist; otherwise the directory is removed and the result is true,
        unless removing fails, which is reported as a
        DocumentProcessingError. */
    method DeleteDocument(documentId: string, removeError: Option<Failure>) returns (r: Result<bool, Failure>)
      modifies this
      ensures vectorStore == old(vectorStore)
      ensures PathJoin(DocumentsDir, documentId) !in old(directories) ==>
                r == Ok(false) && directories == old(directories)
      ensures PathJoin(DocumentsDir, documentId) in old(directories) && removeError.None? ==>
                r == Ok(true) && directories == old(directories) - {PathJoin(DocumentsDir, documentId)}
      ensures PathJoin(DocumentsDir, documentId) in old(directories) && removeError.Some? ==>
                && r == Err(Service(NewDocumentProcessingError("문서 삭제 중 오류 발생: " + Text(removeError.value))))
                && directories == old(directories)
    {
      var documentDir := PathJoin(DocumentsDir, documentId);
      if documentDir !in directories {
        return Ok(false);
      }
      if removeError.Some? {
        return Err(Service(NewDocumentProcessingError("문서 삭제 중 오류 발생: " + Text(removeError.value))));
      }
      directories := directories - {documentDir};
      return Ok(true);
    }
  }
}

=== FILE: exceptions.dfy ===
/** The service's exception hierarchy. Every class derives from
    RAGServiceError, carries a message and an HTTP status code, and prints
    as its message. */
module Exceptions {

  datatype ErrorClass =
    | RAGServiceError
    | DocumentNotFoundError
    | RAGProcessingError
    | LLMServiceError
    | RateLimitError
    | DocumentProcessingError
    | InvalidFileFormatError

  /** An instance of one of the classes above. */
  datatype ServiceError = ServiceError(cls: ErrorClass, message: string, statusCode: int)

  /** An exception raised somewhere in the service: one of its own, or any
      other Python exception, known by its class name and its `str()`. */
  datatype Failure = Service(error: ServiceError) | Other(typeName: string, text: string)

  /** `type(e).__name__` */
  function ClassName(c: ErrorClass): string {
    match c
    case RAGServiceError => "RAGServiceError"
    case DocumentNotFoundError => "DocumentNotFoundError"
    case RAGProcessingError => "RAGProcessingError"
    case LLMServiceError => "LLMServiceError"
    case RateLimitError => "RateLimitError"
    case DocumentProcessingError => "DocumentProcessingError"
    case InvalidFileFormatError => "InvalidFileFormatError"
  }

  // One constructor per class, with the class's default message.

  function NewRAGServiceError(message: string, statusCode: int := 500): ServiceError {
    ServiceError(RAGServiceError, message, statusCode)
  }

  function NewDocumentNotFoundError(message: string := "요청한 문서를 찾을 수 없습니다"): ServiceError {
    ServiceError(DocumentNotFoundError, message, 404)
  }

  function NewRAGProcessingError(message: string := "RAG 처리 중 오류가 발생했습니다"): ServiceError {
    ServiceError(RAGProcessingError, message, 500)
  }

  function NewLLMServiceError(message: string := "LLM 서비스 호출 중 오류가 발생했습니다"): ServiceError {
    ServiceError(LLMServiceError, message, 503)
  }

  function NewRateLimitError(message: string := "API 호출 제한에 도달했습니다"): ServiceError {
    ServiceError(RateLimitError, message, 429)
  }

  function NewDocumentProcessingError(message: string := "문서 처리 중 오류가 발생했습니다"): ServiceError {
    ServiceError(DocumentProcessingError, message, 500)
  }

  function NewInvalidFileFormatError(message: string := "지원하지 않는 파일 형식입니다"): ServiceError {
    ServiceError(InvalidFileFormatError, message, 400)
  }

  /** `str(e)`: a service error prints as its message. */
  function Text(f: Failure): (t: string)
    ensures f.Service? ==> t == f.error.message
  {
    match f
    case Service(e) => e.message
    case Other(_, text) => text
  }

  /** `type(e).__name__` */
  function TypeName(f: Failure): (name: string)
    ensures f.Service? ==> name == ClassName(f.error.cls)
  {
    match f
    case Service(e) => ClassName(e.cls)
    case Other(typeName, _) => typeName
  }

  /** `getattr(e, "status_code", 500)`: only the service's own exceptions
      carry a status code. */
  function StatusOr500(f: Failure): (code: int)
    ensures f.Service? ==> code == f.error.statusCode
    ensures f.Other? ==> code == 500
  {
    match f
    case Service(e) => e.statusCode
    case Other(_, _) => 500
  }

  /** Each class's status code, whatever the message. */
  lemma StatusCodes(m: string)
    ensures NewRAGServiceError(m).statusCode == 500
    ensures NewDocumentNotFoundError(m).statusCode == 404
    ensures NewRAGProcessingError(m).statusCode == 500
    ensures NewLLMServiceError(m).statusCode == 503
    ensures NewRateLimitError(m).statusCode == 429
    ensures NewDocumentProcessingError(m).statusCode == 500
    ensures NewInvalidFileFormatError(m).statusCode == 400
  {
  }

  /** A message given to a constructor is kept, and the exception prints as
      it. */
  lemma MessageKept(m: string)
    ensures Text(Service(NewDocumentNotFoundError(m))) == m
    ensures Text(Service(NewRAGProcessingError(m))) == m
    ensures Text(Service(NewLLMServiceError(m))) == m
    ensures Text(Service(NewRateLimitError(m))) == m
    ensures Text(Service(NewDocumentProcessingError(m))) == m
    ensures Text(Service(NewInvalidFileFormatError(m))) == m
    ensures forall code :: Text(Service(NewRAGServiceError(m, code))) == m
  {
  }
}

=== FILE: markers.dfy ===
/** The citation marker `[n]`: the regular expression `\[(\d+)\]` that the
    quality evaluator counts, the answer enhancer searches for and the
    response formatter extracts, written out as a left-to-right scanner. */
module Markers {
  import opened Common

  /** The end of the run of digits that starts at `k`. */
  function DigitRunEnd(s: string, k: nat): (e: nat)
    requires k <= |s|
    decreases |s| - k
    ensures k <= e <= |s|
    ensures forall t | k <= t < e :: IsDigit(s[t])
    ensures e == |s| || !IsDigit(s[e])
  {
    if k < |s| && IsDigit(s[k]) then DigitRunEnd(s, k + 1) else k
  }

  /** The pattern matches at `i`: an opening bracket, at least one digit,
      a closing bracket. Backtracking into the greedy `\d+` cannot help,
      since a shorter run is followed by a digit, never by "]". */
  predicate MatchAt(s: string, i: nat) {
    i < |s| && s[i] == '[' &&
    var e := DigitRunEnd(s, i + 1); e > i + 1 && e < |s| && s[e] == ']'
  }

  /** `re.findall(r'\[(\d+)\]', s[i:])`: the digit groups of the
      non-overlapping matches, in text order. */
  function ScanFrom(s: string, i: nat): (groups: seq<string>)
    requires i <= |s|
    decreases |s| - i
    ensures forall g | g in groups :: |g| > 0 && AllDigits(g)
    ensures |groups| <= |s| - i
  {
    if i == |s| then []
    else if MatchAt(s, i) then
      var e := DigitRunEnd(s, i + 1);
      [s[i + 1..e]] + ScanFrom(s, e + 1)
    else ScanFrom(s, i + 1)
  }

  /** `re.findall(r'\[(\d+)\]', s)` */
  function FindAll(s: string): (groups: seq<string>)
    ensures forall g | g in groups :: |g| > 0 && AllDigits(g)
  {
    ScanFrom(s, 0)
  }

  /** `re.search(r'\[\d+\]', s) is not None` */
  predicate HasMarker(s: string) {
    exists i | 0 <= i < |s| :: MatchAt(s, i)
  }

  lemma {:induction false} ScanFromFinds(s: string, k: nat, i: nat)
    requires k <= i < |s| && MatchAt(s, i)
    ensures |ScanFrom(s, k)| > 0
    decreases |s| - k
  {
    if !MatchAt(s, k) {
      ScanFromFinds(s, k + 1, i);
    }
  }

  lemma {:induction false} ScanFromFound(s: string, k: nat)
    requires k <= |s| && |ScanFrom(s, k)| > 0
    ensures exists i | k <= i < |s| :: MatchAt(s, i)
    decreases |s| - k
  {
    if !MatchAt(s, k) {
      ScanFromFound(s, k + 1);
    }
  }

  /** `re.search` finds a marker exactly when `re.findall` finds one. */
  lemma HasMarkerIffFound(s: string)
    ensures HasMarker(s) <==> |FindAll(s)| > 0
  {
    if HasMarker(s) {
      var i :| 0 <= i < |s| && MatchAt(s, i);
      ScanFromFinds(s, 0, i);
    }
    if |FindAll(s)| > 0 {
      ScanFromFound(s, 0);
    }
  }

  lemma {:induction false} DigitRunEndAt(s: string, k: nat, e: nat)
    requires k <= e <= |s|
    requires forall t | k <= t < e :: IsDigit(s[t])
    requires e == |s| || !IsDigit(s[e])
    ensures DigitRunEnd(s, k) == e
    decreases e - k
  {
    if k < e {
      DigitRunEndAt(s, k + 1, e);
    }
  }

  /** The literal text "[" + digits + "]" is a marker wherever it stands. */
  lemma MarkerText(s: string, ds: string)
    requires |ds| > 0 && AllDigits(ds)
    requires Contains(s, "[" + ds + "]")
    ensures HasMarker(s)
  {
    var m := "[" + ds + "]";
    var i :| 0 <= i <= |s| - |m| && OccursAt(s, m, i);
    assert s[i..i + |m|] == m;
    assert s[i] == m[0] == '[';
    forall t | i + 1 <= t < i + 1 + |ds|
      ensures IsDigit(s[t])
    {
      assert s[t] == m[t - i] == ds[t - i - 1];
    }
    assert s[i + 1 + |ds|] == m[|ds| + 1] == ']';
    DigitRunEndAt(s, i + 1, i + 1 + |ds|);
    assert MatchAt(s, i);
  }
}

=== FILE: quality_evaluator.dfy ===
/** Heuristic quality evaluation of an answer: a reliability score built
    from points for sources, citations and the text itself, a five-step
    grade ladder over that score, and a list of quality flags.

    Scores are exact `real`s; the service computes them in binary floating
    point. */
module QualityEvaluator {
  import opened Common
  import Markers
  import ResponseModel

  /** Phrases that signal an uncertain answer. */
  const UncertaintyPhrases: seq<string> := ["알 수 없습니다", "확실하지 않습니다", "모릅니다", "불확실합니다"]

  function Min(a: real, b: real): real { if a <= b then a else b }
  function Max(a: real, b: real): real { if a >= b then a else b }

  // ---------------------------------------------------------------------
  // Reliability score

  /** The source term: `min(len(sources) / 5, 1.0) * 0.3`, added only when
      there are sources. */
  function SourceTerm(numSources: nat): (t: real)
    ensures 0.0 <= t <= 0.3
    ensures t == 0.0 <==> numSources == 0
    ensures numSources >= 5 ==> t == 0.3
    ensures numSources < 5 ==> t < 0.3
  {
    if numSources > 0 then Min(numSources as real / 5.0, 1.0) * 0.3 else 0.0
  }

  /** The citation term: `min(citation_count / 3, 1.0) * 0.2`, added only
      when the count is positive. */
  function CitationTerm(citationCount: int): (t: real)
    ensures 0.0 <= t <= 0.2
    ensures t == 0.0 <==> citationCount <= 0
    ensures citationCount >= 3 ==> t == 0.2
    ensures citationCount < 3 ==> t < 0.2
  {
    if citationCount > 0 then Min(citationCount as real / 3.0, 1.0) * 0.2 else 0.0
  }

  /** How many of `phrases` occur in `answer`. */
  function PresentCount(phrases: seq<string>, answer: string): (n: nat)
    ensures n <= |phrases|
  {
    if |phrases| == 0 then 0
    else PresentCount(phrases[..|phrases| - 1], answer)
         + (if Contains(answer, phrases[|phrases| - 1]) then 1 else 0)
  }

  /** Some phrase of `phrases` occurs in `answer`. */
  predicate AnyPresent(phrases: seq<string>, answer: string) {
    exists k | 0 <= k < |phrases| :: Contains(answer, phrases[k])
  }

  lemma {:induction false} PresentCountPositive(phrases: seq<string>, answer: string)
    ensures PresentCount(phrases, answer) > 0 <==> AnyPresent(phrases, answer)
  {
    if |phrases| > 0 {
      var init := phrases[..|phrases| - 1];
      PresentCountPositive(init, answer);
      if exists k | 0 <= k < |init| :: Contains(answer, init[k]) {
        var k :| 0 <= k < |init| && Contains(answer, init[k]);
        assert phrases[k] == init[k];
      }
      if exists k | 0 <= k < |phrases| :: Contains(answer, phrases[k]) {
        var k :| 0 <= k < |phrases| && Contains(answer, phrases[k]);
        if k < |init| {
          assert init[k] == phrases[k];
        }
      }
    }
  }

  /** `re.search(r'\d+(\.\d+)?', answer)` finds something exactly when the
      answer holds a digit. */
  predicate HasNumber(answer: string) {
    exists k | 0 <= k < |answer| :: IsDigit(answer[k])
  }

  predicate AdequateLength(answer: string) {
    100 < |answer| < 1000
  }

  /** The text-quality adjustment before clamping: -0.1 per uncertainty
      phrase present, +0.1 for a number, +0.1 for an adequate length. */
  function RawTextQuality(answer: string): real {
    -0.1 * PresentCount(UncertaintyPhrases, answer) as real
    + (if HasNumber(answer) then 0.1 else 0.0)
    + (if AdequateLength(answer) then 0.1 else 0.0)
  }

  /** The text term, clamped to [-0.2, 0.2]. */
  function TextTerm(answer: string): (t: real)
    ensures -0.2 <= t <= 0.2
  {
    Min(Max(RawTextQuality(answer), -0.2), 0.2)
  }

  /** The reliability score: 0.5 plus the three terms, clipped to [0, 1].
      The three terms never take it below 0.3. */
  function ReliabilityScore(answer: string, numSources: nat, citationCount: int): (score: real)
    ensures 0.3 <= score <= 1.0
  {
    Max(0.0, Min(0.5 + SourceTerm(numSources) + CitationTerm(citationCount) + TextTerm(answer), 1.0))
  }

  /** `calculate_reliability_score`: accumulates the score term by term and
      the text quality phrase by phrase. */
  method CalculateReliabilityScore(answer: string, sources: seq<RawSource>, citationCount: int)
    returns (score: real)
    ensures score == ReliabilityScore(answer, |sources|, citationCount)
    ensures 0.3 <= score <= 1.0
  {
    score := 0.5;
    if |sources| > 0 {
      var sourceScore := Min(|sources| as real / 5.0, 1.0) * 0.3;
      score := score + sourceScore;
    }
    if citationCount > 0 {
      var citationRatio := Min(citationCount as real / 3.0, 1.0);
      score := score + citationRatio * 0.2;
    }
    var textQuality := 0.0;
    for i := 0 to |UncertaintyPhrases|
      invariant textQuality == -0.1 * PresentCount(UncertaintyPhrases[..i], answer) as real
    {
      assert UncertaintyPhrases[..i + 1][..i] == UncertaintyPhrases[..i];
      if Contains(answer, UncertaintyPhrases[i]) {
        textQuality := textQuality - 0.1;
      }
    }
    assert UncertaintyPhrases[..|UncertaintyPhrases|] == UncertaintyPhrases;
    if HasNumber(answer) {
      textQuality := textQuality + 0.1;
    }
    if 100 < |answer| < 1000 {
      textQuality := textQuality + 0.1;
    }
    score := score + Min(Max(textQuality, -0.2), 0.2);
    score := Max(0.0, Min(score, 1.0));
  }

  /** The score is exactly 0.5 plus its three terms, cut at 1.0: the clip
      at 0.0 never applies. */
  lemma ScoreIsSumOfTerms(answer: string, numSources: nat, citationCount: int)
    ensures ReliabilityScore(answer, numSources, citationCount)
         == Min(0.5 + SourceTerm(numSources) + CitationTerm(citationCount) + TextTerm(answer), 1.0)
  {
  }

  /** With no sources and no citations the score is 0.5 plus the text term,
      so at most 0.7. */
  lemma ScoreWithoutEvidence(answer: string, citationCount: int)
    requires citationCount <= 0
    ensures ReliabilityScore(answer, 0, citationCount) == 0.5 + TextTerm(answer)
    ensures ReliabilityScore(answer, 0, citationCount) <= 0.7
  {
  }

  /** More sources or more citations never lower the score. */
  lemma ScoreMonotone(answer: string, n1: nat, n2: nat, c1: int, c2: int)
    requires n1 <= n2 && c1 <= c2
    ensures ReliabilityScore(answer, n1, c1) <= ReliabilityScore(answer, n2, c2)
  {
  }

  // ---------------------------------------------------------------------
  // Grade

  /** The five grades, from lowest to highest. */
  datatype Grade = VeryLow | Low | Medium | High | VeryHigh

  /** The text the service reports for a grade. */
  function GradeLabel(g: Grade): string {
    match g
    case VeryLow => "매우 낮음"
    case Low => "낮음"
    case Medium => "중간"
    case High => "높음"
    case VeryHigh => "매우 높음"
  }

  /** The position of a grade on the ladder. */
  function GradeRank(g: Grade): nat {
    match g
    case VeryLow => 0
    case Low => 1
    case Medium => 2
    case High => 3
    case VeryHigh => 4
  }

  /** The inclusive lower bound of each grade above the lowest. */
  const GradeFloors: seq<real> := [0.3, 0.5, 0.7, 0.9]

  /** `get_reliability_grade` */
  function ReliabilityGrade(score: real): (grade: Grade)
    ensures GradeRank(grade) > 0 ==> GradeFloors[GradeRank(grade) - 1] <= score
    ensures GradeRank(grade) < 4 ==> score < GradeFloors[GradeRank(grade)]
  {
    if score >= 0.9 then VeryHigh
    else if score >= 0.7 then High
    else if score >= 0.5 then Medium
    else if score >= 0.3 then Low
    else VeryLow
  }

  /** Grade `g` is given exactly to the scores from its floor (inclusive)
      up to the next grade's floor (exclusive). */
  lemma GradeBands(score: real, g: Grade)
    ensures ReliabilityGrade(score) == g <==>
            (GradeRank(g) == 0 || GradeFloors[GradeRank(g) - 1] <= score) &&
            (GradeRank(g) == 4 || score < GradeFloors[GradeRank(g)])
  {
  }

  /** A higher score never gets a lower grade. */
  lemma GradeMonotone(a: real, b: real)
    requires a <= b
    ensures GradeRank(ReliabilityGrade(a)) <= GradeRank(ReliabilityGrade(b))
  {
  }

  /** Every score the evaluator computes is graded "낮음" or better. */
  lemma ComputedScoreGrade(answer: string, numSources: nat, citationCount: int)
    ensures ReliabilityGrade(ReliabilityScore(answer, numSources, citationCount)) != VeryLow
  {
  }

  // ---------------------------------------------------------------------
  // Flags

  /** The quality flags, in the order in which they are appended. */
  datatype Flag = NoSources | FewSources | NoCitations | Uncertain | TooShort | TooLong

  /** The text the service reports for a flag. */
  function FlagLabel(f: Flag): string {
    match f
    case NoSources => "소스_없음"
    case FewSources => "소스_부족"
    case NoCitations => "인용_없음"
    case Uncertain => "불확실성_감지"
    case TooShort => "응답_짧음"
    case TooLong => "응답_김"
  }

  /** Position of a flag in the append order. */
  function FlagRank(f: Flag): nat {
    match f
    case NoSources => 0
    case FewSources => 1
    case NoCitations => 2
    case Uncertain => 3
    case TooShort => 4
    case TooLong => 5
  }

  function SourceFlags(numSources: nat): seq<Flag> {
    if numSources == 0 then [NoSources] else if numSources < 2 then [FewSources] else []
  }

  function CitationFlags(citationCount: int): seq<Flag> {
    if citationCount == 0 then [NoCitations] else []
  }

  function UncertaintyFlags(answer: string): seq<Flag> {
    if PresentCount(UncertaintyPhrases, answer) > 0 then [Uncertain] else []
  }

  function LengthFlags(answer: string): seq<Flag> {
    if |answer| < 50 then [TooShort] else if |answer| > 1500 then [TooLong] else []
  }

  /** The flags of `get_quality_flags`, group by group. */
  function QualityFlags(answer: string, numSources: nat, citationCount: int): seq<Flag> {
    SourceFlags(numSources) + CitationFlags(citationCount)
    + UncertaintyFlags(answer) + LengthFlags(answer)
  }

  /** `get_quality_flags`: appends flag by flag, and stops looking for
      uncertainty phrases at the first one found. */
  method GetQualityFlags(answer: string, sources: seq<RawSource>, citationCount: int)
    returns (flags: seq<Flag>)
    ensures flags == QualityFlags(answer, |sources|, citationCount)
  {
    flags := [];
    if |sources| == 0 {
      flags := flags + [NoSources];
    } else if |sources| < 2 {
      flags := flags + [FewSources];
    }
    if citationCount == 0 {
      flags := flags + [NoCitations];
    }
    ghost var before := flags;
    assert before == SourceFlags(|sources|) + CitationFlags(citationCount);
    PresentCountPositive(UncertaintyPhrases, answer);
    var i := 0;
    while i < |UncertaintyPhrases|
      invariant 0 <= i <= |UncertaintyPhrases|
      invariant flags == before
      invariant forall k | 0 <= k < i :: !Contains(answer, UncertaintyPhrases[k])
    {
      if Contains(answer, UncertaintyPhrases[i]) {
        assert AnyPresent(UncertaintyPhrases, answer);
        flags := flags + [Uncertain];
        break;
      }
      i := i + 1;
    }
    assert flags == before + UncertaintyFlags(answer);
    ghost var middle := flags;
    if |answer| < 50 {
      flags := flags + [TooShort];
    } else if |answer| > 1500 {
      flags := flags + [TooLong];
    }
    assert flags == middle + LengthFlags(answer);
  }

  /** What the source flags mean: "소스_없음" exactly when there are no
      sources, "소스_부족" exactly when there is one, never both. */
  lemma SourceFlagsMeaning(answer: string, numSources: nat, citationCount: int)
    ensures var flags := QualityFlags(answer, numSources, citationCount);
      && (NoSources in flags <==> numSources == 0)
      && (FewSources in flags <==> numSources == 1)
      && !(NoSources in flags && FewSources in flags)
  {
  }

  /** What the other flags mean. */
  lemma OtherFlagsMeaning(answer: string, numSources: nat, citationCount: int)
    ensures var flags := QualityFlags(answer, numSources, citationCount);
      && (NoCitations in flags <==> citationCount == 0)
      && (Uncertain in flags <==> AnyPresent(UncertaintyPhrases, answer))
      && (TooShort in flags <==> |answer| < 50)
      && (TooLong in flags <==> |answer| > 1500)
      && !(TooShort in flags && TooLong in flags)
  {
    PresentCountPositive(UncertaintyPhrases, answer);
  }

  /** Every flag of `flags` has a rank in [lo, hi), and the ranks increase. */
  predicate RankedWithin(flags: seq<Flag>, lo: nat, hi: nat) {
    && (forall k | 0 <= k < |flags| :: lo <= FlagRank(flags[k]) < hi)
    && (forall i, j | 0 <= i < j < |flags| :: FlagRank(flags[i]) < FlagRank(flags[j]))
  }

  lemma RankedConcat(a: seq<Flag>, b: seq<Flag>, lo: nat, mid: nat, hi: nat)
    requires lo <= mid <= hi
    requires RankedWithin(a, lo, mid) && RankedWithin(b, mid, hi)
    ensures RankedWithin(a + b, lo, hi)
  {
    var ab := a + b;
    forall k | 0 <= k < |ab|
      ensures lo <= FlagRank(ab[k]) < hi
    {
      if k < |a| {
        assert ab[k] == a[k];
      } else {
        assert ab[k] == b[k - |a|];
      }
    }
    forall i, j | 0 <= i < j < |ab|
      ensures FlagRank(ab[i]) < FlagRank(ab[j])
    {
      if j < |a| {
        assert ab[i] == a[i] && ab[j] == a[j];
      } else if i >= |a| {
        assert ab[i] == b[i - |a|] && ab[j] == b[j - |a|];
      } else {
        assert ab[i] == a[i] && ab[j] == b[j - |a|];
      }
    }
  }

  /** At most four flags, each at most once, in the fixed order. */
  lemma FlagsOrdered(answer: string, numSources: nat, citationCount: int)
    ensures var flags := QualityFlags(answer, numSources, citationCount);
      && |flags| <= 4
      && multiset(flags)[Uncertain] <= 1
      && forall i, j | 0 <= i < j < |flags| :: FlagRank(flags[i]) < FlagRank(flags[j])
  {
    var s, c, u, l := SourceFlags(numSources), CitationFlags(citationCount),
                      UncertaintyFlags(answer), LengthFlags(answer);
    RankedConcat(s, c, 0, 2, 3);
    RankedConcat(s + c, u, 0, 3, 4);
    RankedConcat(s + c + u, l, 0, 4, 6);
    var flags := s + c + u + l;
    assert flags == QualityFlags(answer, numSources, citationCount);
    assert multiset(flags) == multiset(s) + multiset(c) + multiset(u) + multiset(l);
  }

  // ---------------------------------------------------------------------
  // The metrics dictionary

  function FlagValues(flags: seq<Flag>): (vs: seq<Value>)
    ensures |vs| == |flags|
    ensures forall k | 0 <= k < |flags| :: vs[k] == Str(FlagLabel(flags[k]))
  {
    seq(|flags|, k requires 0 <= k < |flags| => Str(FlagLabel(flags[k])))
  }

  function FlagLabels(flags: seq<Flag>): (labels: seq<string>)
    ensures |labels| == |flags|
    ensures forall k | 0 <= k < |flags| :: labels[k] == FlagLabel(flags[k])
  {
    seq(|flags|, k requires 0 <= k < |flags| => FlagLabel(flags[k]))
  }

  /** The six-key metrics dictionary. */
  function MetricsDict(answerLength: int, numSources: int, citationCount: int,
                       score: real, grade: string, flags: seq<Value>): (d: map<string, Value>)
    ensures d.Keys == {"answer_length", "num_sources", "citation_count",
                       "reliability_score", "reliability_grade", "quality_flags"}
    ensures d["answer_length"] == Int(answerLength)
    ensures d["num_sources"] == Int(numSources)
    ensures d["citation_count"] == Int(citationCount)
    ensures d["reliability_score"] == Real(score)
    ensures d["reliability_grade"] == Str(grade)
    ensures d["quality_flags"] == List(flags)
  {
    map[
      "answer_length" := Int(answerLength),
      "num_sources" := Int(numSources),
      "citation_count" := Int(citationCount),
      "reliability_score" := Real(score),
      "reliability_grade" := Str(grade),
      "quality_flags" := List(flags)
    ]
  }

  /** The metrics of `evaluate_answer_quality`, every one computed with the
      same citation count. */
  function QualityReport(answer: string, numSources: nat): map<string, Value> {
    var citationCount := |Markers.FindAll(answer)|;
    var score := ReliabilityScore(answer, numSources, citationCount);
    MetricsDict(|answer|, numSources, citationCount, score,
                GradeLabel(ReliabilityGrade(score)),
                FlagValues(QualityFlags(answer, numSources, citationCount)))
  }

  /** `evaluate_answer_quality`: fills the metrics dictionary key by key. */
  method EvaluateAnswerQuality(answer: string, sources: seq<RawSource>)
    returns (metrics: map<string, Value>)
    ensures metrics == QualityReport(answer, |sources|)
  {
    metrics := map[];
    var answerLength := |answer|;
    metrics := metrics["answer_length" := Int(answerLength)];
    var numSources := |sources|;
    metrics := metrics["num_sources" := Int(numSources)];
    var citationCount := |Markers.FindAll(answer)|;
    metrics := metrics["citation_count" := Int(citationCount)];
    var reliabilityScore := CalculateReliabilityScore(answer, sources, citationCount);
    metrics := metrics["reliability_score" := Real(reliabilityScore)];
    var grade := GradeLabel(ReliabilityGrade(reliabilityScore));
    metrics := metrics["reliability_grade" := Str(grade)];
    var qualityFlags := GetQualityFlags(answer, sources, citationCount);
    var flagValues := FlagValues(qualityFlags);
    metrics := metrics["quality_flags" := List(flagValues)];
    FilledInOrder(answerLength, numSources, citationCount, reliabilityScore, grade, flagValues);
  }

  /** Filling an empty dictionary key by key gives the six-key dictionary. */
  lemma FilledInOrder(answerLength: int, numSources: int, citationCount: int,
                      score: real, grade: string, flags: seq<Value>)
    ensures map[]["answer_length" := Int(answerLength)]["num_sources" := Int(numSources)]
                 ["citation_count" := Int(citationCount)]["reliability_score" := Real(score)]
                 ["reliability_grade" := Str(grade)]["quality_flags" := List(flags)]
            == MetricsDict(answerLength, numSources, citationCount, score, grade, flags)
  {
  }

  /** The report has exactly the six metrics, and the length, source count
      and citation count are those of the inputs. */
  lemma ReportFields(answer: string, numSources: nat)
    ensures var d := QualityReport(answer, numSources);
      && d.Keys == {"answer_length", "num_sources", "citation_count",
                    "reliability_score", "reliability_grade", "quality_flags"}
      && d["answer_length"] == Int(|answer|)
      && d["num_sources"] == Int(numSources)
      && d["citation_count"] == Int(|Markers.FindAll(answer)|)
  {
  }

  /** A metrics dictionary with flag labels in it passes validation as
      QualityMetrics, every field carried over. */
  lemma MetricsDictParses(answerLength: int, numSources: int, citationCount: int,
                          score: real, grade: string, flags: seq<Flag>)
    ensures ResponseModel.ParseQualityMetrics(
              MetricsDict(answerLength, numSources, citationCount, score, grade, FlagValues(flags)))
            == Some(ResponseModel.QualityMetrics(score, grade, citationCount, answerLength, FlagLabels(flags)))
  {
    var d := MetricsDict(answerLength, numSources, citationCount, score, grade, FlagValues(flags));
    assert ResponseModel.AllStrings(d["quality_flags"].items);
    assert ResponseModel.Strings(FlagValues(flags)) == FlagLabels(flags);
  }

  /** The metrics dictionary passes validation as QualityMetrics, with the
      same score, grade, citation count, length and flags. */
  lemma ReportIsQualityMetrics(answer: string, numSources: nat)
    ensures
      var citationCount := |Markers.FindAll(answer)|;
      var score := ReliabilityScore(answer, numSources, citationCount);
      ResponseModel.ParseQualityMetrics(QualityReport(answer, numSources))
      == Some(ResponseModel.QualityMetrics(
           score, GradeLabel(ReliabilityGrade(score)), citationCount, |answer|,
           FlagLabels(QualityFlags(answer, numSources, citationCount))))
  {
    var citationCount := |Markers.FindAll(answer)|;
    var score := ReliabilityScore(answer, numSources, citationCount);
    MetricsDictParses(|answer|, numSources, citationCount, score,
                      GradeLabel(ReliabilityGrade(score)), QualityFlags(answer, numSources, citationCount));
  }
}

=== FILE: rag_service.dfy ===
/** The deterministic part of the RAG service: classifying LLM failures,
    extracting the answer and the sources from a chain's output, wrapping
    unexpected failures, and filtering the chat history handed to the
    conversation chain.

    Retrieval and the chains are library calls. Their outcomes are
    parameters here: the retrieved documents or the failure, the chain's
    output or the failure (for the conversation chain, a function of the
    history it is given), and the elapsed time and token counts. */
module RagService {
  import opened Common
  import opened Exceptions
  import opened ResponseModel
  import ResponseFormatter

  /** A document as the retriever or a chain returns it; `score` is the
      optional attribute of that name. */
  datatype Doc = Doc(pageContent: string, metadata: map<string, Value>, score: Option<real>)

  // ---------------------------------------------------------------------
  // LLM errors

  const RateLimitMessage: string := "OpenAI API 호출 제한에 도달했습니다"
  const InvalidKeyMessage: string := "OpenAI API 키가 유효하지 않습니다"

  predicate MentionsRateLimit(lowered: string) {
    Contains(lowered, "rate limit") || Contains(lowered, "quota")
  }

  predicate MentionsBadKey(lowered: string) {
    Contains(lowered, "invalid api key") || Contains(lowered, "authentication")
  }

  /** `_handle_llm_error`: it always raises; the result is the exception
      it raises, chosen on the lower-cased message. */
  function HandleLlmError(f: Failure): (e: ServiceError)
    ensures e.cls == RateLimitError || e.cls == LLMServiceError
  {
    var lowered := Lower(Text(f));
    if MentionsRateLimit(lowered) then NewRateLimitError(RateLimitMessage)
    else if MentionsBadKey(lowered) then NewLLMServiceError(InvalidKeyMessage)
    else NewLLMServiceError("LLM 처리 중 오류: " + Text(f))
  }

  /** A rate limit or quota message is a RateLimitError (429), whatever else
      it says; otherwise an invalid key or authentication message gets the
      fixed key message, and any other message is carried in an
      LLMServiceError (503). */
  lemma LlmErrorClassification(f: Failure)
    ensures var e := HandleLlmError(f);
      var lowered := Lower(Text(f));
      && (e.cls == RateLimitError <==> MentionsRateLimit(lowered))
      && (e.cls == RateLimitError ==> e.statusCode == 429 && e.message == RateLimitMessage)
      && (e.cls == LLMServiceError ==> e.statusCode == 503)
      && (!MentionsRateLimit(lowered) && MentionsBadKey(lowered) ==> e.message == InvalidKeyMessage)
      && (!MentionsRateLimit(lowered) && !MentionsBadKey(lowered) ==>
            e.message == "LLM 처리 중 오류: " + Text(f))
  {
  }

  /** The exceptions `get_answer_with_sources` lets through unchanged. */
  predicate PassesThrough(f: Failure) {
    f.Service? &&
    (f.error.cls == DocumentNotFoundError || f.error.cls == LLMServiceError || f.error.cls == RateLimitError)
  }

  /** The outer handler of `get_answer_with_sources`. */
  function Rewrap(f: Failure): Failure {
    if PassesThrough(f) then f
    else Service(NewRAGProcessingError("RAG 처리 중 예상치 못한 오류: " + Text(f)))
  }

  // ---------------------------------------------------------------------
  // Answers with sources

  /** The output of the question-answering chain: a dictionary, known by
      its "result", "answer" and "source_documents" entries and its `str()`,
      or some other object, known by its type name and its `str()`. */
  datatype ChainOutput =
    | ChainDict(result: Option<string>, answer: Option<string>, sourceDocuments: Option<seq<Doc>>, text: string)
    | ChainOther(typeName: string, text: string)

  /** Token counts, when the tokenizer could compute them. */
  datatype TokenCounts = TokenCounts(prompt: nat, completion: nat)

  const NoDocumentsMessage: string := "질문과 관련된 문서를 찾을 수 없습니다"

  /** The answer: "result", else "answer", else the printed output. */
  function ChainAnswer(output: ChainOutput): string {
    match output
    case ChainDict(result, answer, _, text) =>
      if result.Some? then result.value else if answer.Some? then answer.value else text
    case ChainOther(_, text) => text
  }

  /** The source entry of the document at position `i`; a document without
      a score gets 1.0 - 0.1 * i. */
  function SourceInfo(doc: Doc, i: nat): RawSource {
    RawSource(Some(doc.pageContent), Some(doc.metadata), Some(doc.score.GetOr(1.0 - i as real * 0.1)))
  }

  function SourcesOf(docs: seq<Doc>): (sources: seq<RawSource>)
    ensures |sources| == |docs|
    ensures forall i | 0 <= i < |docs| :: sources[i] == SourceInfo(docs[i], i)
  {
    seq(|docs|, i requires 0 <= i < |docs| => SourceInfo(docs[i], i))
  }

  /** One source per document, in order, with its text and metadata; a
      document's own score is kept, and the scores given in its place are
      at most 1.0 and fall with the position. */
  lemma SourceScores(docs: seq<Doc>)
    ensures var sources := SourcesOf(docs);
      && |sources| == |docs|
      && (forall i | 0 <= i < |docs| ::
            sources[i].content == Some(docs[i].pageContent) && sources[i].metadata == Some(docs[i].metadata))
      && (forall i | 0 <= i < |docs| && docs[i].score.Some? :: sources[i].score == docs[i].score)
      && (forall i | 0 <= i < |docs| && docs[i].score.None? ::
            sources[i].score.Some? && sources[i].score.value <= 1.0)
      && (forall i, j | 0 <= i < j < |docs| && docs[i].score.None? && docs[j].score.None? ::
            sources[j].score.value < sources[i].score.value)
  {
  }

  /** The failure `.get` raises on an object that is not a dictionary. */
  function NoGet(typeName: string): Failure {
    Other("AttributeError", "'" + typeName + "' object has no attribute 'get'")
  }

  /** What `get_answer_with_sources` returns or raises, given what the
      retriever and the chain returned or raised. */
  function AnswerWithSources(retrieved: Result<seq<Doc>, Failure>, chain: Result<ChainOutput, Failure>,
                             processingTime: real, tokens: Option<TokenCounts>)
    : Result<ResponseFormatter.RagResult, Failure>
  {
    match retrieved
    case Err(f) => Err(Rewrap(f))
    case Ok(docs) =>
      if |docs| == 0 then Err(Rewrap(Service(NewDocumentNotFoundError(NoDocumentsMessage))))
      else
        match chain
        case Err(f) => Err(Rewrap(Service(HandleLlmError(f))))
        case Ok(output) =>
          match output
          case ChainOther(typeName, _) => Err(Rewrap(NoGet(typeName)))
          case ChainDict(_, _, sourceDocuments, _) =>
            Ok(ResponseFormatter.RagResult(
              Some(ChainAnswer(output)),
              Some(SourcesOf(sourceDocuments.GetOr(docs))),
              Some(processingTime),
              if tokens.Some? then Some(tokens.value.prompt) else None,
              if tokens.Some? then Some(tokens.value.completion) else None))
  }

  /** `get_answer_with_sources` */
  method GetAnswerWithSources(retrieved: Result<seq<Doc>, Failure>, chain: Result<ChainOutput, Failure>,
                              processingTime: real, tokens: Option<TokenCounts>)
    returns (r: Result<ResponseFormatter.RagResult, Failure>)
    ensures r == AnswerWithSources(retrieved, chain, processingTime, tokens)
  {
    if retrieved.Err? {
      return Err(Rewrap(retrieved.error));
    }
    var docs := retrieved.value;
    if |docs| == 0 {
      return Err(Rewrap(Service(NewDocumentNotFoundError(NoDocumentsMessage))));
    }
    if chain.Err? {
      return Err(Rewrap(Service(HandleLlmError(chain.error))));
    }
    var chainResult := chain.value;
    var answer := ChainAnswer(chainResult);
    if chainResult.ChainOther? {
      return Err(Rewrap(NoGet(chainResult.typeName)));
    }
    var sourceDocuments := chainResult.sourceDocuments.GetOr(docs);
    var sources: seq<RawSource> := [];
    for i := 0 to |sourceDocuments|
      invariant |sources| == i
      invariant forall k | 0 <= k < i :: sources[k] == SourceInfo(sourceDocuments[k], k)
    {
      sources := sources + [SourceInfo(sourceDocuments[i], i)];
    }
    assert sources == SourcesOf(sourceDocuments);
    var promptTokens, completionTokens := None, None;
    if tokens.Some? {
      promptTokens, completionTokens := Some(tokens.value.prompt), Some(tokens.value.completion);
    }
    return Ok(ResponseFormatter.RagResult(Some(answer), Some(sources), Some(processingTime),
                                          promptTokens, completionTokens));
  }

  /** No documents means DocumentNotFoundError, whatever the chain would
      have done; every failure is one of four service errors; the three
      expected classes pass unchanged and anything else becomes a
      RAGProcessingError carrying its text. */
  lemma AnswerWithSourcesFailures(retrieved: Result<seq<Doc>, Failure>, chain: Result<ChainOutput, Failure>,
                                  processingTime: real, tokens: Option<TokenCounts>)
    ensures var r := AnswerWithSources(retrieved, chain, processingTime, tokens);
      && (retrieved == Ok([]) ==> r == Err(Service(NewDocumentNotFoundError(NoDocumentsMessage))))
      && (r.Err? ==>
            r.error.Service? &&
            r.error.error.cls in {DocumentNotFoundError, LLMServiceError, RateLimitError, RAGProcessingError})
      && (retrieved.Err? && PassesThrough(retrieved.error) ==> r == Err(retrieved.error))
      && (retrieved.Err? && !PassesThrough(retrieved.error) ==>
            r == Err(Service(ServiceError(RAGProcessingError,
                                          "RAG 처리 중 예상치 못한 오류: " + Text(retrieved.error), 500))))
      && (retrieved.Ok? && |retrieved.value| > 0 && chain.Err? ==>
            r == Err(Service(HandleLlmError(chain.error))))
  {
  }

  /** On success: the answer is "result", else "answer", else the printed
      output; there is one source per document of the chain's
      "source_documents", else of the retrieved documents, in order, with
      its content and metadata and its score or 1.0 - 0.1 * i; the token
      counts are present exactly when computed. */
  lemma AnswerWithSourcesResult(docs: seq<Doc>, output: ChainOutput, processingTime: real,
                                tokens: Option<TokenCounts>)
    requires |docs| > 0 && output.ChainDict?
    ensures var r := AnswerWithSources(Ok(docs), Ok(output), processingTime, tokens);
      var used := output.sourceDocuments.GetOr(docs);
      && r.Ok?
      && r.value.answer == Some(
           if output.result.Some? then output.result.value
           else if output.answer.Some? then output.answer.value
           else output.text)
      && r.value.processingTime == Some(processingTime)
      && |r.value.sources.value| == |used|
      && (forall i | 0 <= i < |used| ::
            && r.value.sources.value[i].content == Some(used[i].pageContent)
            && r.value.sources.value[i].metadata == Some(used[i].metadata)
            && r.value.sources.value[i].score == Some(if used[i].score.Some? then used[i].score.value
                                                      else 1.0 - i as real * 0.1))
      && (r.value.promptTokens.Some? <==> tokens.Some?)
      && (r.value.completionTokens.Some? <==> tokens.Some?)
  {
  }

  /** Every document's "source" metadata, when present, is a path. */
  predicate PathDocs(docs: seq<Doc>) {
    forall k | 0 <= k < |docs| :: PathSource(docs[k].metadata)
  }

  /** Sources built from such documents can be formatted. */
  lemma SourcesOfPaths(docs: seq<Doc>)
    requires PathDocs(docs)
    ensures ResponseFormatter.PathSources(SourcesOf(docs))
  {
    var sources := SourcesOf(docs);
    forall k | 0 <= k < |sources|
      ensures PathSource(ResponseFormatter.SourceMetadata(sources[k]))
    {
      assert sources[k] == SourceInfo(docs[k], k);
    }
  }

  // ---------------------------------------------------------------------
  // Conversation

  /** A chat-history entry: a dictionary of strings. */
  type HistoryEntry = map<string, string>

  /** A (question, answer) turn as the conversation chain takes it. */
  type Turn = (string, string)

  /** The output of the conversation chain. */
  datatype ConversationOutput =
    | ConversationDict(answer: Option<string>, sourceDocuments: Option<seq<Doc>>)
    | ConversationOther(typeName: string)

  predicate Complete(entry: HistoryEntry) {
    "human" in entry && "ai" in entry
  }

  /** The turns of a history: the entries with both "human" and "ai", in
      order. */
  function FormatHistory(history: seq<HistoryEntry>): (turns: seq<Turn>)
    decreases |history|
    ensures |turns| <= |history|
  {
    if |history| == 0 then []
    else
      var entry := history[|history| - 1];
      FormatHistory(history[..|history| - 1])
      + (if Complete(entry) then [(entry["human"], entry["ai"])] else [])
  }

  /** Filtering distributes over concatenation. */
  lemma {:induction false} FormatHistoryAppend(a: seq<HistoryEntry>, b: seq<HistoryEntry>)
    ensures FormatHistory(a + b) == FormatHistory(a) + FormatHistory(b)
    decreases |b|
  {
    if |b| > 0 {
      var init := b[..|b| - 1];
      FormatHistoryAppend(a, init);
      assert (a + b)[..|a + b| - 1] == a + init;
      assert (a + b)[|a + b| - 1] == b[|b| - 1];
    } else {
      assert a + b == a;
    }
  }

  /** A history of complete entries becomes one turn per entry. */
  lemma {:induction false} FormatCompleteHistory(history: seq<HistoryEntry>)
    requires forall k | 0 <= k < |history| :: "human" in history[k] && "ai" in history[k]
    ensures |FormatHistory(history)| == |history|
    ensures forall k | 0 <= k < |history| ::
      FormatHistory(history)[k] == (history[k]["human"], history[k]["ai"])
    decreases |history|
  {
    if |history| > 0 {
      FormatCompleteHistory(history[..|history| - 1]);
    }
  }

  /** A history without a complete entry contributes no turn. */
  lemma {:induction false} FormatIncompleteHistory(history: seq<HistoryEntry>)
    requires forall k | 0 <= k < |history| :: !("human" in history[k] && "ai" in history[k])
    ensures FormatHistory(history) == []
    decreases |history|
  {
    if |history| > 0 {
      FormatIncompleteHistory(history[..|history| - 1]);
    }
  }

  /** What `get_conversation_response` returns or raises. Every failure
      goes through `_handle_llm_error`, which always raises, so the
      RAGProcessingError after it is never reached. */
  function ConversationResult(chatHistory: Option<seq<HistoryEntry>>,
                              chain: seq<Turn> -> Result<ConversationOutput, Failure>,
                              processingTime: real)
    : Result<ResponseFormatter.RagResult, Failure>
  {
    match chain(FormatHistory(chatHistory.GetOr([])))
    case Err(f) => Err(Service(HandleLlmError(f)))
    case Ok(ConversationOther(typeName)) => Err(Service(HandleLlmError(NoGet(typeName))))
    case Ok(ConversationDict(answer, sourceDocuments)) =>
      if answer.None? then Err(Service(HandleLlmError(Other("KeyError", "'answer'"))))
      else Ok(ResponseFormatter.RagResult(answer, Some(SourcesOf(sourceDocuments.GetOr([]))),
                                          Some(processingTime), None, None))
  }

  /** `get_conversation_response` */
  method GetConversationResponse(chatHistory: Option<seq<HistoryEntry>>,
                                 chain: seq<Turn> -> Result<ConversationOutput, Failure>,
                                 processingTime: real)
    returns (r: Result<ResponseFormatter.RagResult, Failure>)
    ensures r == ConversationResult(chatHistory, chain, processingTime)
  {
    var history := chatHistory.GetOr([]);
    var formattedHistory: seq<Turn> := [];
    for k := 0 to |history|
      invariant formattedHistory == FormatHistory(history[..k])
    {
      assert history[..k + 1][..k] == history[..k];
      var entry := history[k];
      if "human" in entry && "ai" in entry {
        formattedHistory := formattedHistory + [(entry["human"], entry["ai"])];
      }
    }
    assert history[..|history|] == history;
    var result := chain(formattedHistory);
    if result.Err? {
      return Err(Service(HandleLlmError(result.error)));
    }
    if result.value.ConversationOther? {
      return Err(Service(HandleLlmError(NoGet(result.value.typeName))));
    }
    var sourceDocuments := result.value.sourceDocuments.GetOr([]);
    var sources: seq<RawSource> := [];
    for i := 0 to |sourceDocuments|
      invariant |sources| == i
      invariant forall k | 0 <= k < i :: sources[k] == SourceInfo(sourceDocuments[k], k)
    {
      sources := sources + [SourceInfo(sourceDocuments[i], i)];
    }
    assert sources == SourcesOf(sourceDocuments);
    if result.value.answer.None? {
      return Err(Service(HandleLlmError(Other("KeyError", "'answer'"))));
    }
    return Ok(ResponseFormatter.RagResult(result.value.answer, Some(sources), Some(processingTime), None, None));
  }

  /** A conversation fails only with a RateLimitError or an
      LLMServiceError, and succeeds with the chain's answer and no token
      counts. */
  lemma ConversationOutcomes(chatHistory: Option<seq<HistoryEntry>>,
                             chain: seq<Turn> -> Result<ConversationOutput, Failure>,
                             processingTime: real)
    ensures var r := ConversationResult(chatHistory, chain, processingTime);
      && (r.Err? ==> r.error.Service? && r.error.error.cls in {RateLimitError, LLMServiceError})
      && (r.Ok? ==> r.value.answer.Some? && r.value.promptTokens.None? && r.value.completionTokens.None?)
  {
  }
}

=== FILE: response_formatter.dfy ===
/** Turning a RAG result into the response payload: the sources formatted
    for display and sorted by score, the answer optionally enhanced, the
    `[n]` citations resolved against the sorted sources, the token counts
    when known and the quality metrics on request. */
module ResponseFormatter {
  import opened Common
  import opened Exceptions
  import Markers
  import QualityEvaluator
  import AnswerEnhancer
  import opened ResponseModel

  // ---------------------------------------------------------------------
  // Formatting sources

  /** A source as the response lists it. The human-readable metadata
      (file name, date, author, percentage) is not part of this model. */
  datatype FormattedSource = FormattedSource(
    referenceId: nat,
    content: string,
    context: string,
    metadata: map<string, Value>,
    score: real,
    snippet: string,
    displayName: string)

  /** The text shown for a source: its content, cut to 297 characters and
      "..." when longer than 300. */
  function Context(content: string): (context: string)
    ensures |context| <= 300
    ensures |content| <= 300 ==> context == content
    ensures |content| > 300 ==>
      |context| == 300 && context[..297] == content[..297] && context[297..] == "..."
  {
    if |content| > 300 then content[..297] + "..." else content
  }

  /** The preview: the first 100 characters of the context, and "..." only
      when the context is longer. */
  function PreviewOf(context: string): (snippet: string)
    ensures |snippet| <= 103
    ensures |context| <= 100 ==> snippet == context
    ensures |context| > 100 ==>
      |snippet| == 103 && snippet[..100] == context[..100] && snippet[100..] == "..."
  {
    context[..if |context| < 100 then |context| else 100] + (if |context| > 100 then "..." else "")
  }

  /** The display name: the last component of the "source" path, else
      "문서 n" with the 1-based position. */
  function DisplayNameOf(metadata: map<string, Value>, i: nat): (name: string)
    requires PathSource(metadata)
    ensures "source" in metadata ==>
      var src := metadata["source"].s;
      && EndsWith(src, name)
      && (forall k | 0 <= k < |name| :: name[k] != '/')
      && (|name| < |src| ==> src[|src| - |name| - 1] == '/')
    ensures "source" !in metadata ==> name == "문서 " + NatToString(i + 1)
  {
    if "source" in metadata then Basename(metadata["source"].s) else "문서 " + NatToString(i + 1)
  }

  function SourceMetadata(source: RawSource): map<string, Value> {
    source.metadata.GetOr(map[])
  }

  /** Every source's "source" metadata, when present, is a path string. */
  predicate PathSources(sources: seq<RawSource>) {
    forall k | 0 <= k < |sources| :: PathSource(SourceMetadata(sources[k]))
  }

  /** The entry for the source at position `i`. */
  function FormatSource(source: RawSource, i: nat): FormattedSource
    requires PathSource(SourceMetadata(source))
  {
    var content := source.content.GetOr("");
    var metadata := SourceMetadata(source);
    var context := Context(content);
    FormattedSource(i + 1, content, context, metadata, source.score.GetOr(0.0),
                    PreviewOf(context), DisplayNameOf(metadata, i))
  }

  /** The entries in input order, before sorting. */
  function FormatAll(sources: seq<RawSource>): (formatted: seq<FormattedSource>)
    requires PathSources(sources)
    ensures |formatted| == |sources|
    ensures forall k | 0 <= k < |sources| :: formatted[k] == FormatSource(sources[k], k)
  {
    seq(|sources|, k requires 0 <= k < |sources| => FormatSource(sources[k], k))
  }

  /** Each entry carries its 1-based input position, its content, metadata
      and score unchanged (a missing score as 0.0), a context of at most 300
      characters and a preview of at most 103. */
  lemma FormattedFields(sources: seq<RawSource>, i: nat)
    requires PathSources(sources) && i < |sources|
    ensures var f := FormatAll(sources)[i];
      && f.referenceId == i + 1
      && f.content == sources[i].content.GetOr("")
      && f.metadata == SourceMetadata(sources[i])
      && f.score == sources[i].score.GetOr(0.0)
      && |f.context| <= 300 && |f.snippet| <= 103
      && (|f.content| <= 300 ==> f.context == f.content)
      && (|f.context| <= 100 ==> f.snippet == f.context)
  {
  }

  // ---------------------------------------------------------------------
  // Sorting by score

  /** Insert `x` after every entry whose score is at least its own. */
  function Insert(x: FormattedSource, sorted: seq<FormattedSource>): (r: seq<FormattedSource>)
    decreases |sorted|
  {
    if |sorted| == 0 then [x]
    else if sorted[0].score >= x.score then [sorted[0]] + Insert(x, sorted[1..])
    else [x] + sorted
  }

  /** `list.sort(key=score, reverse=True)`: a stable sort on descending
      score, written as an insertion sort. */
  function SortByScore(xs: seq<FormattedSource>): seq<FormattedSource>
    decreases |xs|
  {
    if |xs| == 0 then []
    else Insert(xs[|xs| - 1], SortByScore(xs[..|xs| - 1]))
  }

  predicate Descending(s: seq<FormattedSource>) {
    forall i, j | 0 <= i < j < |s| :: s[i].score >= s[j].score
  }

  /** Entries of equal score appear in increasing reference order. */
  predicate TiesInOrder(s: seq<FormattedSource>) {
    forall i, j | 0 <= i < j < |s| && s[i].score == s[j].score :: s[i].referenceId < s[j].referenceId
  }

  predicate IdsIncreasing(s: seq<FormattedSource>) {
    forall i, j | 0 <= i < j < |s| :: s[i].referenceId < s[j].referenceId
  }

  lemma {:induction false} InsertPermutes(x: FormattedSource, sorted: seq<FormattedSource>)
    ensures multiset(Insert(x, sorted)) == multiset(sorted) + multiset{x}
    decreases |sorted|
  {
    if |sorted| > 0 && sorted[0].score >= x.score {
      InsertPermutes(x, sorted[1..]);
      assert sorted == [sorted[0]] + sorted[1..];
    }
  }

  /** Every entry of `Insert(x, s)` is `x` or an entry of `s`. */
  lemma InsertMembers(x: FormattedSource, s: seq<FormattedSource>, j: nat)
    requires j < |Insert(x, s)|
    ensures Insert(x, s)[j] == x || exists m | 0 <= m < |s| :: s[m] == Insert(x, s)[j]
  {
    InsertPermutes(x, s);
    var y := Insert(x, s)[j];
    assert y in multiset(Insert(x, s));
    if y != x {
      assert y in multiset(s);
      assert y in s;
    }
  }

  lemma {:induction false} InsertDescending(x: FormattedSource, sorted: seq<FormattedSource>)
    requires Descending(sorted)
    ensures Descending(Insert(x, sorted))
    decreases |sorted|
  {
    if |sorted| > 0 {
      var r := Insert(x, sorted);
      if sorted[0].score >= x.score {
        var tail := sorted[1..];
        InsertDescending(x, tail);
        var rest := Insert(x, tail);
        assert r == [sorted[0]] + rest;
        forall i, j | 0 <= i < j < |r|
          ensures r[i].score >= r[j].score
        {
          if i == 0 {
            InsertMembers(x, tail, j - 1);
            if rest[j - 1] != x {
              var m :| 0 <= m < |tail| && tail[m] == rest[j - 1];
              assert sorted[m + 1] == rest[j - 1];
            }
          } else {
            assert r[i] == rest[i - 1] && r[j] == rest[j - 1];
          }
        }
      } else {
        forall i, j | 0 <= i < j < |r|
          ensures r[i].score >= r[j].score
        {
          if i > 0 {
            assert r[i] == sorted[i - 1];
          }
          assert r[j] == sorted[j - 1];
        }
      }
    }
  }

  lemma {:induction false} InsertTiesInOrder(x: FormattedSource, sorted: seq<FormattedSource>)
    requires Descending(sorted) && TiesInOrder(sorted)
    requires forall k | 0 <= k < |sorted| :: sorted[k].referenceId < x.referenceId
    ensures TiesInOrder(Insert(x, sorted))
    decreases |sorted|
  {
    if |sorted| > 0 {
      var r := Insert(x, sorted);
      if sorted[0].score >= x.score {
        var tail := sorted[1..];
        InsertTiesInOrder(x, tail);
        var rest := Insert(x, tail);
        assert r == [sorted[0]] + rest;
        forall i, j | 0 <= i < j < |r| && r[i].score == r[j].score
          ensures r[i].referenceId < r[j].referenceId
        {
          if i == 0 {
            InsertMembers(x, tail, j - 1);
            if rest[j - 1] != x {
              var m :| 0 <= m < |tail| && tail[m] == rest[j - 1];
              assert sorted[m + 1] == rest[j - 1];
            }
          } else {
            assert r[i] == rest[i - 1] && r[j] == rest[j - 1];
          }
        }
      } else {
        forall i, j | 0 <= i < j < |r| && r[i].score == r[j].score
          ensures r[i].referenceId < r[j].referenceId
        {
          assert r[j] == sorted[j - 1];
          if i > 0 {
            assert r[i] == sorted[i - 1];
          }
        }
      }
    }
  }

  /** A permutation of entries numbered below `x` is numbered below `x`. */
  lemma IdsBelow(xs: seq<FormattedSource>, ys: seq<FormattedSource>, x: FormattedSource)
    requires multiset(ys) == multiset(xs)
    requires forall k | 0 <= k < |xs| :: xs[k].referenceId < x.referenceId
    ensures forall k | 0 <= k < |ys| :: ys[k].referenceId < x.referenceId
  {
    forall k | 0 <= k < |ys|
      ensures ys[k].referenceId < x.referenceId
    {
      assert ys[k] in multiset(xs);
      var m :| 0 <= m < |xs| && xs[m] == ys[k];
    }
  }

  /** The sort is a permutation, puts higher scores first, and keeps entries
      of equal score in their input order. */
  lemma {:induction false} SortByScoreCorrect(xs: seq<FormattedSource>)
    requires IdsIncreasing(xs)
    ensures multiset(SortByScore(xs)) == multiset(xs)
    ensures Descending(SortByScore(xs))
    ensures TiesInOrder(SortByScore(xs))
    decreases |xs|
  {
    if |xs| > 0 {
      var init, last := xs[..|xs| - 1], xs[|xs| - 1];
      SortByScoreCorrect(init);
      var sorted := SortByScore(init);
      IdsBelow(init, sorted, last);
      InsertDescending(last, sorted);
      InsertTiesInOrder(last, sorted);
      InsertPermutes(last, sorted);
      assert xs == init + [last];
    }
  }

  /** `format_sources_for_display` */
  method FormatSourcesForDisplay(sources: seq<RawSource>) returns (formatted: seq<FormattedSource>)
    requires PathSources(sources)
    ensures formatted == SortByScore(FormatAll(sources))
  {
    formatted := [];
    for i := 0 to |sources|
      invariant |formatted| == i
      invariant forall k | 0 <= k < i :: formatted[k] == FormatSource(sources[k], k)
    {
      formatted := formatted + [FormatSource(sources[i], i)];
    }
    assert formatted == FormatAll(sources);
    formatted := SortByScore(formatted);
  }

  /** One entry per input source, each exactly once, highest score first,
      equal scores in input order. */
  lemma DisplayedSources(sources: seq<RawSource>)
    requires PathSources(sources)
    ensures var r := SortByScore(FormatAll(sources));
      && |r| == |sources|
      && multiset(r) == multiset(FormatAll(sources))
      && Descending(r)
      && TiesInOrder(r)
  {
    var xs := FormatAll(sources);
    SortByScoreCorrect(xs);
    assert |multiset(SortByScore(xs))| == |multiset(xs)|;
  }

  // ---------------------------------------------------------------------
  // Citations

  /** The citation for the source at 0-based `index` of the list. */
  function CitationFor(source: FormattedSource, index: nat): Citation {
    Citation(
      source.snippet,
      Get(source.metadata, "document_id", Str("doc_" + NatToString(index))),
      source.displayName,
      Get(source.metadata, "page", Nil))
  }

  /** The citations for the marker numbers `groups`, in order: a number n
      with 1 <= n <= |sources| gives the citation of `sources[n - 1]`, any
      other number nothing, and so does a group too long for `int`, whose
      ValueError the handler swallows. */
  function CitationsOf(groups: seq<string>, sources: seq<FormattedSource>): seq<Citation>
    requires forall k | 0 <= k < |groups| :: AllDigits(groups[k])
    decreases |groups|
  {
    if |groups| == 0 then []
    else
      var parsed := ParseInt(groups[|groups| - 1]);
      var index := if parsed.Some? then parsed.value - 1 else -1;
      CitationsOf(groups[..|groups| - 1], sources)
      + (if 0 <= index < |sources| then [CitationFor(sources[index], index)] else [])
  }

  /** `extract_citations` */
  method ExtractCitations(answer: string, sources: seq<FormattedSource>) returns (citations: seq<Citation>)
    ensures citations == CitationsOf(Markers.FindAll(answer), sources)
  {
    var matches := Markers.FindAll(answer);
    citations := [];
    for k := 0 to |matches|
      invariant citations == CitationsOf(matches[..k], sources)
    {
      assert matches[..k + 1][..k] == matches[..k];
      var parsed := ParseInt(matches[k]);
      if parsed.Some? {
        var index := parsed.value as int - 1;
        if 0 <= index < |sources| {
          citations := citations + [CitationFor(sources[index], index)];
        }
      }
    }
    assert matches[..|matches|] == matches;
  }

  /** When every marker is in range there is one citation per marker, in
      answer order, repeated markers repeating their citation. */
  lemma {:induction false} CitationsInRange(groups: seq<string>, sources: seq<FormattedSource>)
    requires forall k | 0 <= k < |groups| :: AllDigits(groups[k])
    requires forall k | 0 <= k < |groups| :: |groups[k]| <= MaxStrDigits && 1 <= DecimalValue(groups[k]) <= |sources|
    ensures |CitationsOf(groups, sources)| == |groups|
    ensures forall k | 0 <= k < |groups| ::
      CitationsOf(groups, sources)[k]
      == CitationFor(sources[DecimalValue(groups[k]) - 1], DecimalValue(groups[k]) - 1)
    decreases |groups|
  {
    if |groups| > 0 {
      var init := groups[..|groups| - 1];
      CitationsInRange(init, sources);
    }
  }

  /** Markers that are all out of range (0, above the number of sources,
      or too long for `int`, even with leading zeros before a number in
      range) give no citation. */
  lemma {:induction false} CitationsOutOfRange(groups: seq<string>, sources: seq<FormattedSource>)
    requires forall k | 0 <= k < |groups| :: AllDigits(groups[k])
    requires forall k | 0 <= k < |groups| ::
      |groups[k]| > MaxStrDigits || DecimalValue(groups[k]) == 0 || DecimalValue(groups[k]) > |sources|
    ensures CitationsOf(groups, sources) == []
    decreases |groups|
  {
    if |groups| > 0 {
      CitationsOutOfRange(groups[..|groups| - 1], sources);
    }
  }

  /** Never more citations than markers. */
  lemma {:induction false} CitationsBound(groups: seq<string>, sources: seq<FormattedSource>)
    requires forall k | 0 <= k < |groups| :: AllDigits(groups[k])
    ensures |CitationsOf(groups, sources)| <= |groups|
    decreases |groups|
  {
    if |groups| > 0 {
      CitationsBound(groups[..|groups| - 1], sources);
    }
  }

  /** The text "[1]" holds one marker, numbered 1. */
  lemma MarkerOne()
    ensures Markers.FindAll("[1]") == ["1"]
    ensures AllDigits("1") && DecimalValue("1") == 1 && ParseInt("1") == Some(1)
  {
    var one := "[1]";
    Markers.DigitRunEndAt(one, 1, 2);
    assert Markers.MatchAt(one, 0);
    assert one[1..2] == "1";
    assert Markers.ScanFrom(one, 3) == [];
    assert Markers.ScanFrom(one, 0) == [one[1..2]] + Markers.ScanFrom(one, 3);
  }

  /** The first entry after sorting has the highest score of all sources. */
  lemma {:induction false} FirstIsHighest(sources: seq<RawSource>)
    requires PathSources(sources) && |sources| > 0
    ensures var formatted := SortByScore(FormatAll(sources));
      && |formatted| == |sources|
      && forall k | 0 <= k < |sources| :: formatted[0].score >= sources[k].score.GetOr(0.0)
  {
    var xs := FormatAll(sources);
    var formatted := SortByScore(xs);
    DisplayedSources(sources);
    forall k | 0 <= k < |sources|
      ensures formatted[0].score >= sources[k].score.GetOr(0.0)
    {
      assert xs[k] in multiset(formatted);
      var m :| 0 <= m < |formatted| && formatted[m] == xs[k];
    }
  }

  /** When a later source scores higher than the first one given, the
      first entry after sorting is not the one with reference id 1. */
  lemma FirstNotFirstGiven(sources: seq<RawSource>, k: nat)
    requires PathSources(sources) && 0 < k < |sources|
    requires sources[k].score.GetOr(0.0) > sources[0].score.GetOr(0.0)
    ensures SortByScore(FormatAll(sources))[0].referenceId != 1
  {
    var xs := FormatAll(sources);
    var formatted := SortByScore(xs);
    FirstIsHighest(sources);
    DisplayedSources(sources);
    assert formatted[0] in multiset(xs);
    var m :| 0 <= m < |xs| && xs[m] == formatted[0];
    assert xs[m].referenceId == m + 1;
  }

  /** Marker [1] cites the first of any non-empty list of entries. */
  lemma CiteFirst(formatted: seq<FormattedSource>)
    requires |formatted| > 0
    ensures CitationsOf(Markers.FindAll("[1]"), formatted) == [CitationFor(formatted[0], 0)]
  {
    MarkerOne();
    assert ["1"][..0] == [];
  }

  /** Marker [1] names the first source after sorting, not the first
      one given: it cites the entry of highest score, which is not the
      entry with reference id 1 once a later source scores higher. */
  lemma CitationFollowsSortedOrder(sources: seq<RawSource>)
    requires PathSources(sources) && |sources| > 0
    ensures var formatted := SortByScore(FormatAll(sources));
      && |formatted| == |sources|
      && CitationsOf(Markers.FindAll("[1]"), formatted) == [CitationFor(formatted[0], 0)]
      && (forall k | 0 <= k < |sources| :: formatted[0].score >= sources[k].score.GetOr(0.0))
      && ((exists k | 0 < k < |sources| :: sources[k].score.GetOr(0.0) > sources[0].score.GetOr(0.0)) ==>
            formatted[0].referenceId != 1)
  {
    FirstIsHighest(sources);
    CiteFirst(SortByScore(FormatAll(sources)));
    if exists k | 0 < k < |sources| :: sources[k].score.GetOr(0.0) > sources[0].score.GetOr(0.0) {
      var k :| 0 < k < |sources| && sources[k].score.GetOr(0.0) > sources[0].score.GetOr(0.0);
      FirstNotFirstGiven(sources, k);
    }
  }

  // ---------------------------------------------------------------------
  // The response

  /** The RAG service's result dictionary; every key may be missing. */
  datatype RagResult = RagResult(
    answer: Option<string>,
    sources: Option<seq<RawSource>>,
    processingTime: Option<real>,
    promptTokens: Option<int>,
    completionTokens: Option<int>)

  /** The response dictionary; the optional keys are `None` when absent. */
  datatype ResponseData = ResponseData(
    answer: string,
    sources: seq<FormattedSource>,
    processingTime: real,
    citations: seq<Citation>,
    promptTokens: Option<int>,
    completionTokens: Option<int>,
    qualityMetrics: Option<map<string, Value>>)

  function RawSources(rag: RagResult): seq<RawSource> {
    rag.sources.GetOr([])
  }

  /** What `format_rag_response` computes, or the exception the enhancer
      raises. */
  function Formatted(rag: RagResult, enhance: bool, evaluateQuality: bool): Result<ResponseData, Failure>
    requires PathSources(RawSources(rag))
  {
    var sources := RawSources(rag);
    var formattedSources := SortByScore(FormatAll(sources));
    var enhanced :=
      if enhance then AnswerEnhancer.Enhanced(rag.answer.GetOr(""), sources)
      else Ok(rag.answer.GetOr(""));
    match enhanced
    case Err(e) => Err(e)
    case Ok(answer) => Ok(Response(rag, answer, formattedSources, evaluateQuality))
  }

  /** The response dictionary around the final answer and the sorted
      sources. */
  function Response(rag: RagResult, answer: string, formattedSources: seq<FormattedSource>,
                    evaluateQuality: bool): ResponseData
  {
    ResponseData(
      answer, formattedSources, rag.processingTime.GetOr(0.0),
      CitationsOf(Markers.FindAll(answer), formattedSources),
      rag.promptTokens, rag.completionTokens,
      if evaluateQuality then Some(QualityEvaluator.QualityReport(answer, |RawSources(rag)|)) else None)
  }

  /** `format_rag_response` */
  method FormatRagResponse(rag: RagResult, enhance: bool := true, evaluateQuality: bool := false)
    returns (r: Result<ResponseData, Failure>)
    requires PathSources(RawSources(rag))
    ensures r == Formatted(rag, enhance, evaluateQuality)
  {
    var answer := rag.answer.GetOr("");
    var sources := rag.sources.GetOr([]);
    var processingTime := rag.processingTime.GetOr(0.0);
    var promptTokens := rag.promptTokens;
    var completionTokens := rag.completionTokens;
    var formattedSources := FormatSourcesForDisplay(sources);
    if enhance {
      var enhanced := AnswerEnhancer.EnhanceAnswer(answer, sources);
      if enhanced.Err? {
        return Err(enhanced.error);
      }
      answer := enhanced.value;
    }
    var citations := ExtractCitations(answer, formattedSources);
    var data := ResponseData(answer, formattedSources, processingTime, citations, None, None, None);
    if promptTokens.Some? {
      data := data.(promptTokens := promptTokens);
    }
    if completionTokens.Some? {
      data := data.(completionTokens := completionTokens);
    }
    if evaluateQuality {
      var qualityMetrics := QualityEvaluator.EvaluateAnswerQuality(answer, sources);
      data := data.(qualityMetrics := Some(qualityMetrics));
    }
    return Ok(data);
  }

  /** The response fails only when enhancing raises. Otherwise: missing
      values take their defaults, the token counts are present exactly when
      given, the metrics are present exactly when asked for and are scored
      against the unformatted sources, and without enhancing the answer is
      passed through. */
  lemma FormattedResponse(rag: RagResult, enhance: bool, evaluateQuality: bool)
    requires PathSources(RawSources(rag))
    ensures var r := Formatted(rag, enhance, evaluateQuality);
      && (r.Err? <==> enhance && AnswerEnhancer.Enhanced(rag.answer.GetOr(""), RawSources(rag)).Err?)
      && (!enhance ==> r.Ok? && r.value.answer == rag.answer.GetOr(""))
      && (r.Ok? ==>
          && |r.value.sources| == |RawSources(rag)|
          && r.value.processingTime == rag.processingTime.GetOr(0.0)
          && r.value.promptTokens == rag.promptTokens
          && r.value.completionTokens == rag.completionTokens
          && (r.value.qualityMetrics.Some? <==> evaluateQuality)
          && (evaluateQuality ==>
                r.value.qualityMetrics.value
                == QualityEvaluator.QualityReport(r.value.answer, |RawSources(rag)|)))
  {
    DisplayedSources(RawSources(rag));
  }

  /** With enhancing, a successful response carries the answer the
      citation step left unchanged, through markdown and abbreviations. */
  lemma EnhancedResponse(rag: RagResult, evaluateQuality: bool)
    requires PathSources(RawSources(rag))
    ensures var r := Formatted(rag, true, evaluateQuality);
      r.Ok? ==> r.value.answer
                == AnswerEnhancer.Highlighted(AnswerEnhancer.Markdown(rag.answer.GetOr("")))
  {
    AnswerEnhancer.EnhanceOutcome(rag.answer.GetOr(""), RawSources(rag));
  }
}

=== FILE: response_model.dfy ===
/** The response schema: the source document with its two computed fields,
    the citation and quality-metrics records, and the standard API
    envelope. */
module ResponseModel {
  import opened Common

  /** A retrieved document as the response carries it. */
  datatype SourceDocument = SourceDocument(
    content: string,
    metadata: map<string, Value>,
    score: Option<real>)

  /** Where metadata has a "source" entry it is a file path, as every loader
      and the upload path set it; `os.path.basename` needs a string. */
  predicate PathSource(metadata: map<string, Value>) {
    "source" in metadata ==> metadata["source"].Str?
  }

  /** The computed `display_name`: the "filename" entry when there is one,
      else the last component of the "source" path, else a fixed name. */
  function DisplayName(doc: SourceDocument): (name: Value)
    requires "filename" !in doc.metadata ==> PathSource(doc.metadata)
    ensures "filename" in doc.metadata ==> name == doc.metadata["filename"]
    ensures "filename" !in doc.metadata && "source" in doc.metadata ==>
      var src := doc.metadata["source"].s;
      && name.Str? && EndsWith(src, name.s)
      && (forall k | 0 <= k < |name.s| :: name.s[k] != '/')
      && (|name.s| < |src| ==> src[|src| - |name.s| - 1] == '/')
    ensures "filename" !in doc.metadata && "source" !in doc.metadata ==>
      name == Str("Unknown document")
  {
    if "filename" in doc.metadata then doc.metadata["filename"]
    else if "source" in doc.metadata then Str(Basename(doc.metadata["source"].s))
    else Str("Unknown document")
  }

  /** A "filename" entry is shown whatever the "source" entry holds, even
      a value that is not a path. */
  lemma FilenameOverSource(content: string, filename: Value, source: Value, score: Option<real>)
    ensures DisplayName(SourceDocument(content, map["filename" := filename, "source" := source], score)) == filename
  {
  }

  /** The computed `snippet`: the content itself when it is at most 100
      characters, otherwise its first 97 characters and "...". */
  function Snippet(doc: SourceDocument): (s: string)
    ensures |s| <= 100
    ensures |doc.content| <= 100 ==> s == doc.content
    ensures |doc.content| > 100 ==>
      |s| == 100 && s[..97] == doc.content[..97] && s[97..] == "..."
  {
    if |doc.content| > 100 then doc.content[..97] + "..." else doc.content
  }

  /** A citation found in an answer. */
  datatype Citation = Citation(
    text: string,
    documentId: Value,
    documentName: string,
    page: Value)

  /** Quality metrics of an answer: four required fields and a list of flags
      that defaults to empty. */
  datatype QualityMetrics = QualityMetrics(
    reliabilityScore: real,
    reliabilityGrade: string,
    citationCount: int,
    answerLength: int,
    qualityFlags: seq<string>)

  /** A `float` field in lax mode: a float, an integer or a boolean. */
  function AsFloat(v: Value): Option<real> {
    match v
    case Real(r) => Some(r)
    case Int(i) => Some(i as real)
    case Bool(b) => Some(if b then 1.0 else 0.0)
    case _ => None
  }

  /** An `int` field in lax mode: an integer, a boolean, or a float with no
      fractional part. */
  function AsInt(v: Value): Option<int> {
    match v
    case Int(i) => Some(i)
    case Bool(b) => Some(if b then 1 else 0)
    case Real(r) => if r.Floor as real == r then Some(r.Floor) else None
    case _ => None
  }

  /** Whatever an `int` field accepts, a `float` field accepts with the same
      value; a float with a fractional part is no `int`. */
  lemma IntIsFloat(v: Value)
    ensures AsInt(v).Some? ==> AsFloat(v).Some? && AsFloat(v).value == AsInt(v).value as real
    ensures v.Real? && AsInt(v).Some? ==> AsInt(v).value as real == v.r
    ensures v.Real? && AsInt(v).None? ==> v.r.Floor as real < v.r < v.r.Floor as real + 1.0
  {
  }

  predicate AllStrings(items: seq<Value>) {
    forall k | 0 <= k < |items| :: items[k].Str?
  }

  function Strings(items: seq<Value>): (r: seq<string>)
    requires AllStrings(items)
    ensures |r| == |items|
    ensures forall k | 0 <= k < |items| :: r[k] == items[k].s
  {
    seq(|items|, k requires 0 <= k < |items| => items[k].s)
  }

  /** Validation of a dictionary against QualityMetrics: each required key
      is present with a value its type accepts, and a missing
      "quality_flags" becomes the empty list. */
  function ParseQualityMetrics(d: map<string, Value>): (m: Option<QualityMetrics>)
    ensures m.Some? <==>
      && "reliability_score" in d && AsFloat(d["reliability_score"]).Some?
      && "reliability_grade" in d && d["reliability_grade"].Str?
      && "citation_count" in d && AsInt(d["citation_count"]).Some?
      && "answer_length" in d && AsInt(d["answer_length"]).Some?
      && ("quality_flags" in d ==> d["quality_flags"].List? && AllStrings(d["quality_flags"].items))
    ensures m.Some? && "quality_flags" !in d ==> m.value.qualityFlags == []
  {
    if && "reliability_score" in d && AsFloat(d["reliability_score"]).Some?
       && "reliability_grade" in d && d["reliability_grade"].Str?
       && "citation_count" in d && AsInt(d["citation_count"]).Some?
       && "answer_length" in d && AsInt(d["answer_length"]).Some?
       && ("quality_flags" in d ==> d["quality_flags"].List? && AllStrings(d["quality_flags"].items))
    then
      var flags := if "quality_flags" in d then Strings(d["quality_flags"].items) else [];
      Some(QualityMetrics(
        AsFloat(d["reliability_score"]).value,
        d["reliability_grade"].s,
        AsInt(d["citation_count"]).value,
        AsInt(d["answer_length"]).value,
        flags))
    else None
  }

  /** Lax validation: a boolean score and an integral float count are
      coerced, a fractional count and a missing grade are refused. */
  lemma LaxValidation(grade: string)
    ensures ParseQualityMetrics(map["reliability_score" := Bool(true), "reliability_grade" := Str(grade),
                                    "citation_count" := Real(3.0), "answer_length" := Int(120)])
            == Some(QualityMetrics(1.0, grade, 3, 120, []))
    ensures ParseQualityMetrics(map["reliability_score" := Real(0.5), "reliability_grade" := Str(grade),
                                    "citation_count" := Real(2.5), "answer_length" := Int(120)]).None?
    ensures ParseQualityMetrics(map["reliability_score" := Real(0.5),
                                    "citation_count" := Int(2), "answer_length" := Int(120)]).None?
  {
    assert (3.0).Floor == 3;
    assert (2.5).Floor == 2;
  }

  /** The "error" member of a failed response. */
  datatype ErrorInfo = ErrorInfo(typeName: string, message: string, statusCode: int)

  /** The "meta" member: the query, and for a success the number of
      sources (and, for a conversation, the history length). */
  datatype Meta = Meta(query: string, totalSources: Option<nat>, historyLength: Option<nat>)

  /** The standard API envelope. */
  datatype ApiResponse<T> = ApiResponse(
    success: bool,
    data: Option<T>,
    error: Option<ErrorInfo>,
    meta: Meta)
}
